=== FILE: README.md ===
# LED scroller — a Dafny model

This project models the logic of the LED scroller web page and of its two
adaptive-theme companion scripts (versions 0.2.5 and 0.2.6). The model covers:

- the black/white `contrast` rule, compared exactly in integers
  (`299r + 587g + 114b > threshold * 1000`): threshold 180 for the scroller,
  150 for the theme scripts;
- `toHexFromRgbString` and the click listeners' inline `rgb(...)` to `#rrggbb`
  conversion, including the `(1 << 24) + … toString(16).slice(1)`
  zero-padding trick, the 32-bit wrap of the shifts and the `NaN` cases;
- `buildLedGlow` and the 0.2.6 tint colour with its `40` alpha suffix;
- the settings record `{text, speed, color, blink, showScroller}` with the
  dark-mode flag, over a `map<string, string>` that stands in for local
  storage and a `storageAvailable` flag:
  - the initial load with its defaults and fallbacks;
  - `handleChange`, show/hide and the theme toggle with the theme effect;
- the derived display values: duration `25 - 2 * speed`, the animation class
  list, the palette's `selected` marks, and the three-way choice between the
  input screen, the "No Message Input." notice and the scrolling display;
- the theme scripts' behaviour:
  - `fixLabelAssociations`;
  - theme persistence and restore;
  - input persistence and restore;
  - the colour click: normalise, save, paint, move the selection;
  - `applyLedColor`;
  - restoring the stored colour on load.

The JavaScript primitives these rely on are defined in `JsText` on Dafny
strings and unbounded integers: truthiness and `||`, `trim`, ASCII
`toUpperCase`, `parseInt` (white space, sign, `0x` prefix, longest digit run,
`NaN`), `Number(...)` on integer literals, `String(n)`, `toString(16)`, `slice`,
`substr`, `replace` of one character and `split`. A number is an exact integer
or `NaN` (`JsNumber`).

The modules are:

| module | file | contents |
|---|---|---|
| `Wrappers` | `wrappers.dfy` | `Option` |
| `JsText` | `js_text.dfy` | the JavaScript primitives |
| `Colour` | `colour.dfy` | contrast, hex conversion, glow, palette |
| `SettingsStore` | `settings.dfy` | settings, storage, load, change, show/hide, theme |
| `Display` | `display.dfy` | duration, classes, palette marks, the view |
| `AdaptiveTheme` | `adaptive.dfy` | both theme scripts; each operation takes the `Version` |

The browser is replaced by parameters and results:

- the storage map and the availability flag (`false` means every storage
  call throws);
- `isScrolling`, which the start-delay timer sets;
- the page's current light class;
- the button already marked `selected`;
- the attributes of a clicked element.

An operation returns the new storage or state instead of mutating it.

Some facts about the code that the model keeps:

- the show button is not gated on the message; a blank message only changes
  what the display shows;
- the speed is clamped neither on load nor on change;
- the stored colour is not validated;
- the scroller's contrast threshold is 180, and the theme scripts' is 150.

Version 0.2.6's click listener converts an `rgb`-prefixed colour without
first checking that there are three components, so a colour with fewer gives
`NaN` for the sum and stores the text `#aN`. The model keeps this as written
(`AdaptiveTheme.NormaliseClickColour`) and states it in
`AdaptiveTheme.MissingGuardGivesNaNText`; version 0.2.5 has the guard.

## Model

| member | source | states |
|---|---|---|
| JsText.NumberOr | js/LEDScroller.js:62 | `Number(...) \|\| 5` keeps the number unless it is 0 or `NaN`, and the result is never 0 unless the fallback is |
| JsText.TrimStart | js/LEDScroller.js:146 | the result is a suffix of the input that does not start with white space, and every dropped character is white space |
| JsText.TrimEnd | js/LEDScroller.js:146 | the result is a prefix of the input that does not end with white space, and every dropped character is white space |
| JsText.TrimDropsOnlySpace | js/LEDScroller.js:146 | `text.trim()` is a run of the text with only white space dropped on either side |
| JsText.TrimHasSolidEnds | js/LEDScroller.js:146 | `text.trim()` neither starts nor ends with white space |
| JsText.TrimEmptyIffAllSpace | js/LEDScroller.js:146 | `text.trim()` is empty exactly when every character is white space, in both directions |
| JsText.ToUpperProperties | js/LEDScroller.js:157-159 | each lower-case ASCII letter becomes its own capital, no lower-case ASCII letter is left, other characters are unchanged, and upper-casing twice is upper-casing once |
| JsText.LeadingDigitsOfDigits | js/LEDScroller.js:24 | `parseInt` reads the whole digit run up to the first non-digit |
| JsText.ParseIntStopsAtText | js/LEDScroller.js:24 | `parseInt` of digits followed by other text is the digits' value, unless the two form a `0x` prefix |
| JsText.ParseIntOfText | js/LEDScroller.js:24 | text starting with neither white space, a sign nor a digit parses to `NaN` |
| JsText.ParseIntOfDigits | js/LEDScroller.js:33 | `parseInt` of a digit string, in radix 10 or 16, is that string's value |
| JsText.DecValue | js/LEDScroller.js:24 | decimal text without leading zeros denotes the number it was written from |
| JsText.DecParseRoundTrip | js/LEDScroller.js:24 | `parseInt` reads the decimal text of `n` back as `n` |
| JsText.FixedValue | js/LEDScroller.js:25 | `k` zero-padded hexadecimal digits of `n < 16^k` denote `n` |
| JsText.ShiftedIsProduct | js/LEDScroller.js:25 | appending `k` zero hex digits multiplies by `16^k` |
| JsText.HexShift | js/LEDScroller.js:25 | the hex text of `q * 16^k + m` (with `m < 16^k`) is the hex text of `q` followed by exactly `k` zero-padded digits of `m`: the leading-one padding trick |
| JsText.FixedConcat | js/LEDScroller.js:25 | zero-padded hex text splits at a digit boundary into the high and low parts |
| JsText.FixedTwo | js/LEDScroller.js:25 | two padded digits of a byte are its two hex digits |
| JsText.HexByteParse | js/LEDScroller.js:33 | a byte's two hex digits parse back to the byte with `parseInt(…, 16)` |
| JsText.IntStringRoundTrip | js/LEDScroller.js:62 | `Number(String(n))` is `n` for every integer, negative ones included |
| JsText.StringToNumber | js/LEDScroller.js:62 | `Number` of blank text is 0, and of text starting with a lower-case letter is `NaN` |
| JsText.HexParseRoundTrip | js/LEDScroller.js:25 | `parseInt(n.toString(16), 16)` is `n` for every integer, negative ones included |
| JsText.Slice | js/LEDScroller.js:33 | `slice(from, to)` within bounds is that subsequence, and it is never longer than the input |
| JsText.Substr | js/adaptive-theme-v025.js:10 | `substr(from, length)` equals `slice(from, from + length)` for non-negative arguments |
| JsText.RemoveFirst | js/LEDScroller.js:32 | `replace('#', '')` deletes the first `#` wherever it is, a leading one included, and keeps a string without `#` unchanged |
| JsText.SplitAppend | js/LEDScroller.js:22 | `split` separates a separator-free piece from what follows the separator |
| JsText.SplitNoSep | js/LEDScroller.js:22 | a string without the separator splits into itself alone |
| JsText.SplitJoin | js/LEDScroller.js:22 | joining the pieces of `split(sep)` with `sep` gives back the text |
| Colour.Contrast | js/LEDScroller.js:30-36 | the result is `#000` or `#fff`, and `#fff` for a missing or empty colour |
| Colour.ChannelsOfHexColour | js/LEDScroller.js:32-33 | for a `#RRGGBB` colour the three parsed channels are its three digit pairs' values |
| Colour.ContrastOfHexColour | js/LEDScroller.js:33-35 | on `#RRGGBB` the result is `#000` exactly when `299r + 587g + 114b > threshold * 1000` |
| Colour.ThemeChannelsAgree | js/adaptive-theme-v025.js:9-10 | the theme scripts' `substr` reading gives the same channels as the scroller's `slice` reading |
| Colour.ContrastThresholdsNest | js/adaptive-theme-v025.js:12 | black under threshold 180 implies black under threshold 150, for every input |
| Colour.PaletteContrast | js/LEDScroller.js:7-13 | under 180 only White gets black text; under 150 White and Yellow do |
| Colour.ToInt32 | js/LEDScroller.js:25 | the shift operand is brought into the signed 32-bit range as the integer congruent to it modulo 2^32, unchanged when it already lies there, `NaN` as 0 |
| Colour.Wrap32 | js/LEDScroller.js:25 | the wrapped value is in the signed 32-bit range and congruent to the input modulo 2^32 |
| Colour.EncodeRgb | js/LEDScroller.js:25 | the encoder's text always starts with `#` |
| Colour.EncodeInRange | js/LEDScroller.js:25 | for channels 0..255 the text is `#` and two lower-case hex digits per channel |
| Colour.EncodeThenChannels | js/LEDScroller.js:25-33 | an encoded colour is a well-formed `#RRGGBB`, and `contrast` parses back the channels that went in |
| Colour.ToHexFromRgbString | js/LEDScroller.js:18-27 | falsy input gives `null`, a `#`-prefixed string is returned as is, fewer than three components give `null`, any other result starts with `#` |
| Colour.StripRgbSyntax | js/LEDScroller.js:22 | the deletion never lengthens the text, leaves no `)` and no white space, and keeps every comma of `rgb(...)` or `rgba(...)`, the separators `split(",")` cuts the components at |
| Colour.StripChannels | js/LEDScroller.js:22 | the `rgba?\(\|\)\|\s` deletion turns `rgb(x, y, z)` with digit channels into `x,y,z` |
| Colour.StripCssRgb | js/LEDScroller.js:22 | the same for the text a browser reports for a colour |
| Colour.CssRgbComponents | js/LEDScroller.js:22 | a browser colour string splits into its three decimal channel texts |
| Colour.CssRgbRoundTrip | js/LEDScroller.js:18-27 | `toHexFromRgbString` on `rgb(r, g, b)` is the encoder's text, which is seven characters long and whose channels read back as `r, g, b` |
| Colour.BuildLedGlow | js/LEDScroller.js:39-42 | the glow is the fixed white glow exactly for the two white literals; any other colour gets `52 + 5 * length` characters |
| Colour.GlowIsJoinedLayers | js/LEDScroller.js:39-42 | exactly `#FFFFFF` and `#fff` get the fixed white glow; every other colour gets five comma-joined layers that each end in the colour, longer than the white glow |
| Colour.LowerCaseWhiteGetsColouredGlow | js/LEDScroller.js:40 | `#ffffff` is not one of the white literals and gets the coloured glow |
| SettingsStore.LoadSettings | js/LEDScroller.js:58-70 | the loaded settings start hidden with a non-empty message, a non-zero speed and a non-empty colour; unavailable storage gives the defaults; otherwise each field falls back on its own: a truthy stored message or colour is loaded as is and a falsy one gives its default, a stored speed whose `Number` is non-zero is loaded and one that is 0 or `NaN` gives 5, and blink is on exactly for the stored text `true` |
| SettingsStore.SpeedFallsBack | js/LEDScroller.js:62 | a missing, blank or letter-led stored speed (such as `abc`) loads as 5 |
| SettingsStore.LoadDarkMode | js/LEDScroller.js:51-56 | the page starts light exactly when storage is readable and holds `light` |
| SettingsStore.Mount | js/LEDScroller.js:72-98 | after the first effects the probe key is gone, the theme is written back, every other key is kept, and no key but the theme is added |
| SettingsStore.ThemeSurvivesReload | js/LEDScroller.js:51-98 | a second load sees the theme and the settings the first load saw |
| SettingsStore.Assign | js/LEDScroller.js:109-113 | the copy holds the new value in the changed field and agrees with the old record on every other field |
| SettingsStore.HandleChange | js/LEDScroller.js:100-114 | the change is always applied in memory and touches only its field; it is written under its own key only while storage is available; no other key changes |
| SettingsStore.ChangeSurvivesReload | js/LEDScroller.js:58-114 | after a change, a reload reads the field back exactly when the value is reloadable (non-empty text or colour, non-zero speed, any blink), otherwise the default, and other fields load as before |
| SettingsStore.UnavailableChangeIsForgotten | js/LEDScroller.js:67-69 | without storage a change is lost on reload and the defaults come back |
| SettingsStore.ShowScroller | js/LEDScroller.js:116-124 | showing sets the visibility flag and changes nothing else |
| SettingsStore.HideScroller | js/LEDScroller.js:126-130 | hiding clears the visibility flag and changes nothing else |
| SettingsStore.ShowHideRoundTrip | js/LEDScroller.js:116-130 | show then hide returns a hidden state to itself, and showing twice is showing once |
| SettingsStore.SetDarkMode | js/LEDScroller.js:88-98 | the theme effect saves the flag so that the next load reads it back, keeps every other key and adds none |
| SettingsStore.ToggleTheme | js/LEDScroller.js:175 | the theme button flips the flag, keeps the settings and the storage flag, and saves the new theme so that the next load reads it, writing no other key |
| SettingsStore.ToggleRoundTrip | js/LEDScroller.js:51-98 | toggling twice restores the theme, and a reload after a toggle starts in the toggled theme |
| Display.DurationOnSlider | js/LEDScroller.js:141 | for speeds 1..10 a pass takes between 5 and 23 seconds, an odd number |
| Display.DurationSeconds | js/LEDScroller.js:141 | the duration is odd and determines the speed: `(25 - duration) / 2` is the speed |
| Display.FasterIsShorter | js/LEDScroller.js:141 | a higher speed gives a strictly shorter pass, both ways, and the duration determines the speed |
| Display.DurationStyleReadsBack | js/LEDScroller.js:156 | the number before the `s` in the duration style reads back as the duration |
| Display.ClassTokens | js/LEDScroller.js:142-143 | `led-blink` is a class exactly when blinking, `paused` exactly before the start delay is over, `animate-scroller` exactly after |
| Display.LedClass | js/LEDScroller.js:142-143 | the class list splits into the animation state, `led-text`, and `led-blink` when blinking |
| Display.PaletteDistinct | js/LEDScroller.js:7-13 | the palette's colours are pairwise distinct |
| Display.SelectionIsUnique | js/LEDScroller.js:197-206 | at most one button is selected, and one is exactly when the colour is a palette colour |
| Display.InputView | js/LEDScroller.js:167-170 | the show button gets `#000` or `#fff` text: on a `#RRGGBB` colour `#000` exactly when `299r + 587g + 114b > 180000`, and `#fff` for an empty colour; the palette marks are the selection for the current colour |
| Display.ScrollingView | js/LEDScroller.js:141-160 | the display shows three copies of the upper-cased message in the chosen colour, blinks exactly when blink is on, moves exactly when the start delay is over, and carries the speed's duration style and the colour's glow |
| Display.Render | js/LEDScroller.js:146-247 | the input screen exactly when hidden (the choice at line 247), the notice exactly when shown with a blank message (lines 146-151), otherwise the scrolling display |
| Display.ShowThenHideRendersInput | js/LEDScroller.js:247 | showing then hiding renders the input screen with the same palette marks |
| Display.PickColourSelectsIt | js/LEDScroller.js:167-204 | clicking palette button `k` marks that button and no other, and the show button's text is black on White and white on every other palette colour |
| AdaptiveTheme.GeneratedId | js/adaptive-theme-v025.js:24-26 | a generated id starts with `formctrl-` and has more after it |
| AdaptiveTheme.FixLabelAssociations | js/adaptive-theme-v025.js:16-33 | every row with a label and a control ends with the label pointing at the control's non-empty id; an existing id is never replaced; a missing id becomes the version's generated id; rows without label or control are untouched |
| AdaptiveTheme.FixIsIdempotent | js/adaptive-theme-v026.js:20-30 | running the repair twice is running it once |
| AdaptiveTheme.GeneratedIdsDistinct | js/adaptive-theme-v025.js:25 | controls in different rows never get the same generated id, in either version |
| AdaptiveTheme.DecInjective | js/adaptive-theme-v026.js:26 | different row indices have different decimal texts |
| AdaptiveTheme.RestoreTheme | js/adaptive-theme-v025.js:126-132 | a stored `light` or `dark` is read as the scroller reads it on load; any other value, or storage that throws, keeps the page's state |
| AdaptiveTheme.PersistTheme | js/adaptive-theme-v025.js:114-119 | the toggle listener writes the page's theme under the theme key and adds or changes no other key; a throwing write saves nothing |
| AdaptiveTheme.ThemeRoundTrip | js/adaptive-theme-v025.js:114-132 | a saved theme is restored on the next load, whatever the page starts with; without storage the page keeps its starting state |
| AdaptiveTheme.ThemeSharedWithScroller | js/adaptive-theme-v026.js:74-76 | the scripts restore the theme the scroller saved, and the scroller loads the theme the scripts saved |
| AdaptiveTheme.ApplyLedColor | js/adaptive-theme-v026.js:61-71 | nothing is painted exactly for a falsy colour; 0.2.6 paints an `rgb` colour after `toHexFromRgbString`; the button text is `#fff` when the conversion gives `null` and, for a `#rrggbb` colour, `#000` exactly when its luma exceeds the theme threshold 150; the shadow embeds the painted colour |
| AdaptiveTheme.PaintOfHexAgrees | js/adaptive-theme-v025.js:67-82 | both versions paint a `#` colour identically |
| AdaptiveTheme.PaintOfConvertible | js/adaptive-theme-v026.js:63 | 0.2.6 paints a convertible `rgb` colour as 0.2.5 paints its conversion |
| AdaptiveTheme.PaintConvertsRgb | js/adaptive-theme-v026.js:63 | 0.2.6 paints `rgb(r, g, b)` as 0.2.5 paints the encoded hex text |
| AdaptiveTheme.ClickedColour | js/adaptive-theme-v025.js:95 | 0.2.5 takes the first truthy of the attribute, the inline background, `value` and `data-color`; 0.2.6 takes the attribute, then `value`, then the background |
| AdaptiveTheme.NormaliseClickColour | js/adaptive-theme-v025.js:97-104 | only an `rgb`-prefixed colour is rewritten, 0.2.5 keeps one with fewer than three components, and a rewritten colour starts with `#` |
| AdaptiveTheme.NormaliseAgreesWithConversion | js/adaptive-theme-v026.js:97 | with three components both versions' inline conversion equals `toHexFromRgbString` |
| AdaptiveTheme.MissingGuardGivesNaNText | js/adaptive-theme-v026.js:97 | with fewer than three components 0.2.6 yields `#aN`, 0.2.5 keeps the colour, and `toHexFromRgbString` gives `null` |
| AdaptiveTheme.NormaliseCssRgb | js/adaptive-theme-v025.js:97-104 | a browser-reported `rgb(r, g, b)` is normalised to the encoded hex text by both versions |
| AdaptiveTheme.MarkSelection | js/adaptive-theme-v025.js:110-111 | after a click exactly the clicked element carries `selected`, and the attributes are unchanged |
| AdaptiveTheme.ColourClick | js/adaptive-theme-v025.js:91-112 | a truthy normalised colour is saved under the colour key and painted; a falsy one saves and paints nothing; no other key is added or changed; the selection moves to the clicked element, except when saving throws, which leaves storage, paint and selection as they were |
| AdaptiveTheme.TintBackground | js/adaptive-theme-v026.js:52-53 | a seven-character colour gets `40` appended, nine characters in all; any other is used as stored |
| AdaptiveTheme.TintOverlay | js/adaptive-theme-v026.js:43-58 | the tint layer is present exactly when storage works and a truthy colour is stored, and its colour is the stored one, with `40` appended when that is seven characters long |
| AdaptiveTheme.TintAfterClick | js/adaptive-theme-v026.js:98 | after a 0.2.6 click on a `#rrggbb` button the tint is that colour with `40` appended |
| AdaptiveTheme.PersistInput | js/adaptive-theme-v025.js:86-89 | the message box writes the message key, the slider the speed key, others nothing, and no other key is added or changed; a throwing write saves nothing |
| AdaptiveTheme.MessageRoundTrip | js/adaptive-theme-v025.js:86-138 | a typed non-empty message is restored into the input and loaded by the scroller; an empty one falls back |
| AdaptiveTheme.SpeedRoundTrip | js/adaptive-theme-v025.js:88 | a non-zero slider value saved by the script is the speed the scroller loads |
| AdaptiveTheme.RestoreColour | js/adaptive-theme-v025.js:126-155 | a truthy stored colour is painted as `applyLedColor` paints it; without one, 0.2.5 paints the selected button's truthy attribute and 0.2.6 paints nothing; storage that throws paints nothing |
| AdaptiveTheme.ClickThenRestorePaintsSame | js/adaptive-theme-v025.js:105-108 | a reload paints exactly what the click painted, with or without working storage |
| AdaptiveTheme.MarkStoredColour | js/adaptive-theme-v025.js:141-145 | a button ends marked exactly when it was marked or its attribute equals the stored colour |
| AdaptiveTheme.ClickSavesAttribute | js/adaptive-theme-v025.js:95-106 | a click on a button with a non-`rgb` attribute saves that attribute when storage works, and leaves the stored colour otherwise |
| AdaptiveTheme.ClickThenRestoreMarksSame | js/adaptive-theme-v025.js:141-145 | with distinct attributes, a reload onto an unmarked page marks the same button the click marked |
| AdaptiveTheme.MarkingsAgree | js/adaptive-theme-v025.js:110-111 | marking the clicked button and marking buttons by its colour agree when the colours are distinct |

## Left out

- The whole of `js/adaptive-theme.js` is left out. It is observer plumbing, and its one computation is the threshold-150 contrast already modelled.
- React rendering, hooks and DOM queries are left out. State is a datatype and every update is a pure function.
- Timers are parameters or absent: the splash delay, the 3-second start delay (`isScrolling` is a parameter), the 120 ms theme delay and `setInterval`.
- MutationObserver callbacks are left out.
- Storage exceptions are one availability flag: the scroller's `storageAvailable`, and an `available` parameter of every theme-script operation that touches storage, where `false` means every storage call throws. Storage that can be read but refuses writes (a quota error) is not modelled.
- Lengths and indices count Unicode scalar values, as Dafny strings do, not UTF-16 code units as JavaScript's `length`, `slice` and `substr` do. Text with characters outside the Basic Multilingual Plane (an emoji in a colour, say) is measured differently: `#😀abcd` has seven code units in JavaScript, so 0.2.6 appends `40` to it, but `AdaptiveTheme.TintBackground` sees six characters and keeps it.
- Numbers are exact integers or `NaN`: `parseInt` loses no precision above 2^53, and fractional speeds are not modelled.
- JsText.StringToNumber: `Number(...)` accepts only an optional sign and decimal digits, with white space trimmed. Hexadecimal, exponent, fractional and `Infinity` syntaxes give `NaN` here, not their values.
- JsText.ToUpper: only ASCII letters are upper-cased, because `toUpperCase` on other scripts needs Unicode tables.
- The styling constants of `applyThemeVisuals` are left out: label and input colours, the body and scroller backgrounds, the gradient string around the tint, the overlay's position and blend mode.
- Also left out: the card style, the theme button's label and `aria-pressed`, the storage notice, `document.title`, the footer and the `scrollLeft` reset on show.
- AdaptiveTheme.ApplyLedColor: one record stands for every matched element. The button backgrounds, which take the painted colour, are not separate fields.

=== FILE: adaptive.dfy ===
/**
 * The adaptive-theme companion scripts, versions 0.2.5 and 0.2.6, which run
 * beside the scroller: label repair, colour and input persistence through
 * click and input listeners, theme persistence, and restoring what was
 * saved on the next load. Each operation takes the version, since the two
 * scripts differ in small ways that matter.
 */
module AdaptiveTheme {
  import opened Wrappers
  import opened JsText
  import opened Colour
  import opened SettingsStore

  datatype Version = V025 | V026

  /* ---------------------------------------------------------------------- */
  /* fixLabelAssociations                                                   */
  /* ---------------------------------------------------------------------- */

  /** A form control as the repair sees it: its `id`, `name` and `type`, with
      the empty string for a missing one. */
  datatype Control = Control(id: string, name: string, kind: string)

  /** One `.form-row`: the `for` target of its first label, if it has a label,
      and its first control, if it has one. */
  datatype Row = Row(labelFor: Option<string>, control: Option<Control>)

  /** The id given to a control without one, in the row at `idx`. Version
      0.2.5 builds it from the name, else the type, else the index, followed
      by the index; version 0.2.6 uses the index alone. */
  function GeneratedId(c: Control, idx: nat, v: Version): (id: string)
    ensures StartsWith(id, "formctrl-") && |id| > |"formctrl-"|
  {
    match v
    case V025 => "formctrl-" + Or(Or(Some(c.name), Some(c.kind)), Some(Dec(idx))).value + "-" + Dec(idx)
    case V026 => "formctrl-" + Dec(idx)
  }

  /** The label points at the control, and the control has an id. */
  predicate Linked(r: Row) {
    r.labelFor.Some? && r.control.Some? && r.control.value.id != "" && r.labelFor.value == r.control.value.id
  }

  /** The repair of one row: a row without a label or without a control is
      left alone; otherwise a missing id is generated and the label is
      pointed at the control's id. */
  function FixRow(r: Row, idx: nat, v: Version): Row {
    if r.labelFor.None? || r.control.None? then r
    else
      var c := r.control.value;
      var id := if c.id == "" then GeneratedId(c, idx, v) else c.id;
      Row(Some(id), Some(c.(id := id)))
  }

  /** `fixLabelAssociations()` over the page's rows in document order. */
  function FixLabelAssociations(rows: seq<Row>, v: Version): (out: seq<Row>)
    ensures |out| == |rows|
    ensures forall i | 0 <= i < |rows| :: rows[i].labelFor.Some? && rows[i].control.Some? ==> Linked(out[i])
    ensures forall i | 0 <= i < |rows| :: rows[i].labelFor.None? || rows[i].control.None? ==> out[i] == rows[i]
    ensures forall i | 0 <= i < |rows| && rows[i].control.Some? && rows[i].control.value.id != "" ::
              out[i].control == rows[i].control
    ensures forall i | 0 <= i < |rows| && rows[i].labelFor.Some? && rows[i].control.Some? ::
              out[i].control.Some?
              && out[i].control.value.name == rows[i].control.value.name
              && out[i].control.value.kind == rows[i].control.value.kind
    ensures forall i | 0 <= i < |rows| && rows[i].labelFor.Some? && rows[i].control.Some? && rows[i].control.value.id == "" ::
              out[i].control.Some? && out[i].control.value.id == GeneratedId(rows[i].control.value, i, v)
  {
    seq(|rows|, i requires 0 <= i < |rows| => FixRow(rows[i], i, v))
  }

  /** Running the repair a second time changes nothing. */
  lemma FixIsIdempotent(rows: seq<Row>, v: Version)
    ensures FixLabelAssociations(FixLabelAssociations(rows, v), v) == FixLabelAssociations(rows, v)
  {
    var once := FixLabelAssociations(rows, v);
    forall i | 0 <= i < |rows| ensures FixRow(once[i], i, v) == once[i] {
    }
  }

  /** The longest run of decimal digits at the end of `s`. */
  function TrailingDigits(s: string): string
    decreases |s|
  {
    if |s| == 0 || !IsDigit(s[|s| - 1], false) then ""
    else TrailingDigits(s[..|s| - 1]) + [s[|s| - 1]]
  }

  /** After a `-`, a run of digits is exactly the trailing run. */
  lemma {:induction false} TrailingDigitsAfterDash(p: string, d: string)
    requires AllDigits(d, false)
    ensures TrailingDigits(p + "-" + d) == d
    decreases |d|
  {
    var s := p + "-" + d;
    if |d| == 0 {
      assert s[|s| - 1] == '-';
    } else {
      assert s[..|s| - 1] == p + "-" + d[..|d| - 1];
      assert AllDigits(d[..|d| - 1], false);
      TrailingDigitsAfterDash(p, d[..|d| - 1]);
      assert IsDigit(s[|s| - 1], false);
    }
  }

  /** A string that ends in `-` and a run of digits determines the run. */
  lemma DigitSuffix(p: string, d: string, q: string, e: string)
    requires AllDigits(d, false) && AllDigits(e, false)
    requires p + "-" + d == q + "-" + e
    ensures d == e
  {
    TrailingDigitsAfterDash(p, d);
    TrailingDigitsAfterDash(q, e);
  }

  /** Decimal text is injective. */
  lemma DecInjective(a: nat, b: nat)
    requires Dec(a) == Dec(b)
    ensures a == b
  {
    DecValue(a);
    DecValue(b);
  }

  /** Rows at different positions never get the same generated id, in either
      version. */
  lemma {:induction false} GeneratedIdsDistinct(c: Control, i: nat, d: Control, j: nat, v: Version)
    requires i != j
    ensures GeneratedId(c, i, v) != GeneratedId(d, j, v)
  {
    if GeneratedId(c, i, v) == GeneratedId(d, j, v) {
      match v
      case V026 =>
        assert Dec(i) == GeneratedId(c, i, v)[9..];
        assert Dec(j) == GeneratedId(d, j, v)[9..];
        DecInjective(i, j);
      case V025 =>
        var p := "formctrl-" + Or(Or(Some(c.name), Some(c.kind)), Some(Dec(i))).value;
        var q := "formctrl-" + Or(Or(Some(d.name), Some(d.kind)), Some(Dec(j))).value;
        assert p + "-" + Dec(i) == q + "-" + Dec(j);
        DigitSuffix(p, Dec(i), q, Dec(j));
        DecInjective(i, j);
    }
  }

  /* ---------------------------------------------------------------------- */
  /* Theme                                                                  */
  /* ---------------------------------------------------------------------- */

  /** The stored theme on load: `light` turns the light class on, `dark` turns
      it off, and anything else leaves the page's current state. When storage
      throws, the whole restore is skipped and the page keeps its state. */
  function RestoreTheme(storage: Storage, available: bool, light: bool): (isLight: bool)
    ensures !available ==> isLight == light
    ensures available && Get(storage, ThemeKey) in {Some("light"), Some("dark")}
            ==> isLight == !LoadDarkMode(storage, available)
    ensures available && Get(storage, ThemeKey) !in {Some("light"), Some("dark")} ==> isLight == light
  {
    if !available then light
    else
      var stored := Get(storage, ThemeKey);
      if stored == Some("light") then true
      else if stored == Some("dark") then false
      else light
  }

  /** The theme-toggle listener saves the page's state after the toggle; a
      write to storage that throws saves nothing. */
  function PersistTheme(storage: Storage, available: bool, isLight: bool): (st: Storage)
    ensures available ==> Get(st, ThemeKey) == Some(ThemeName(!isLight))
    ensures !available ==> st == storage
    ensures forall k | k in storage && k != ThemeKey :: k in st && st[k] == storage[k]
    ensures st.Keys <= storage.Keys + {ThemeKey}
  {
    if available then storage[ThemeKey := ThemeName(!isLight)] else storage
  }

  /** A saved theme is restored on the next load, whatever the page starts
      with; without storage the page keeps the state it starts with. */
  lemma ThemeRoundTrip(storage: Storage, available: bool, isLight: bool, initial: bool)
    ensures available ==> RestoreTheme(PersistTheme(storage, available, isLight), available, initial) == isLight
    ensures !available ==> RestoreTheme(PersistTheme(storage, available, isLight), available, initial) == initial
  {
  }

  /** The scripts and the scroller share the theme key and its values: a
      theme the scroller saved is the one the script restores, and the other
      way round. */
  lemma ThemeSharedWithScroller(app: App, dark: bool, initial: bool)
    requires app.storageAvailable
    ensures RestoreTheme(SetDarkMode(app, dark).storage, true, initial) == !dark
    ensures LoadDarkMode(PersistTheme(app.storage, true, !dark), true) == dark
  {
  }

  /* ---------------------------------------------------------------------- */
  /* applyLedColor                                                          */
  /* ---------------------------------------------------------------------- */

  /** What `applyLedColor` paints: the LED text colour and its shadow, and
      the text colour of the primary and exit buttons, whose background
      takes the LED colour. */
  datatype LedPaint = LedPaint(color: Option<string>, textShadow: string, buttonText: string)

  /** The shadow painted under LED text. */
  function LedShadow(color: Option<string>): string {
    "0 0 6px " + Str(color) + ", 0 0 12px rgba(0,0,0,0.25)"
  }

  /** `applyLedColor(color)`: nothing for a falsy colour. Version 0.2.6 first
      converts a colour starting with `rgb`, which may yield `null`. */
  function ApplyLedColor(color: Option<string>, v: Version): (p: Option<LedPaint>)
    ensures p.None? <==> !Truthy(color)
    ensures p.Some? && (v == V025 || !StartsWith(color.value, "rgb")) ==> p.value.color == color
    ensures p.Some? && v == V026 && StartsWith(color.value, "rgb") ==> p.value.color == ToHexFromRgbString(color)
    ensures p.Some? ==> p.value.buttonText in {Black, White}
    ensures p.Some? && !Truthy(p.value.color) ==> p.value.buttonText == White
    ensures p.Some? && p.value.color.Some? && IsHexColour(p.value.color.value) ==>
              (p.value.buttonText == Black
               <==> Luma(PairValue(p.value.color.value, 1), PairValue(p.value.color.value, 3),
                         PairValue(p.value.color.value, 5)) > ThemeThreshold * 1000)
    ensures p.Some? ==> p.value.textShadow == LedShadow(p.value.color)
  {
    if !Truthy(color) then None
    else
      var c := if v == V026 && StartsWith(color.value, "rgb") then ToHexFromRgbString(color) else color;
      ContrastWhenHex(c, ThemeThreshold);
      Some(LedPaint(c, LedShadow(c), Contrast(c, ThemeThreshold)))
  }

  /** A hex colour is painted the same by both versions. */
  lemma PaintOfHexAgrees(color: string)
    requires |color| > 0 && color[0] == '#'
    ensures ApplyLedColor(Some(color), V025) == ApplyLedColor(Some(color), V026)
  {
  }

  /** A browser colour string starts with `rgb`. */
  lemma CssRgbIsRgb(r: nat, g: nat, b: nat)
    ensures StartsWith(CssRgb(r, g, b), "rgb")
  {
    assert CssRgb(r, g, b)[..3] == "rgb";
  }

  /** Version 0.2.6 paints an `rgb`-prefixed colour that converts to a hex
      text as version 0.2.5 paints that hex text. */
  lemma PaintOfConvertible(css: string, hex: string)
    requires StartsWith(css, "rgb") && ToHexFromRgbString(Some(css)) == Some(hex)
    requires |hex| > 0 && hex[0] == '#'
    ensures ApplyLedColor(Some(css), V026) == ApplyLedColor(Some(hex), V025)
  {
  }

  /** Version 0.2.6 paints a browser-reported `rgb(...)` colour as its hex
      conversion is painted. */
  lemma PaintConvertsRgb(r: nat, g: nat, b: nat)
    requires r < 256 && g < 256 && b < 256
    ensures ApplyLedColor(Some(CssRgb(r, g, b)), V026) == ApplyLedColor(Some(EncodeRgb(Num(r), Num(g), Num(b))), V025)
  {
    CssRgbRoundTrip(r, g, b);
    CssRgbIsRgb(r, g, b);
    PaintOfConvertible(CssRgb(r, g, b), EncodeRgb(Num(r), Num(g), Num(b)));
  }

  /* ---------------------------------------------------------------------- */
  /* Colour clicks                                                          */
  /* ---------------------------------------------------------------------- */

  /** What the click listener reads from a colour button: its
      `data-led-color`, `value` and `data-color` attributes (`null` when
      absent) and its inline background colour (empty when unset), which a
      browser reports in `rgb(...)` form. */
  datatype ColourTarget = ColourTarget(ledColor: Option<string>, backgroundColor: string, value: Option<string>,
                                       dataColor: Option<string>)

  /** The first truthy source of the clicked colour, in each version's order. */
  function ClickedColour(t: ColourTarget, v: Version): (c: Option<string>)
    ensures Truthy(t.ledColor) ==> c == t.ledColor
    ensures v == V025 && !Truthy(t.ledColor) && t.backgroundColor != "" ==> c == Some(t.backgroundColor)
    ensures v == V025 && !Truthy(t.ledColor) && t.backgroundColor == "" ==> c == Or(t.value, t.dataColor)
    ensures v == V026 && !Truthy(t.ledColor) && Truthy(t.value) ==> c == t.value
    ensures v == V026 && !Truthy(t.ledColor) && !Truthy(t.value) ==> c == Some(t.backgroundColor)
  {
    match v
    case V025 => Or(Or(Or(t.ledColor, Some(t.backgroundColor)), t.value), t.dataColor)
    case V026 => Or(Or(t.ledColor, t.value), Some(t.backgroundColor))
  }

  /** `parseInt(nums[i])`, where reading past the end gives `undefined`,
      which parses to `NaN`. */
  function Component(nums: seq<string>, i: nat): (n: JsNumber)
    ensures i >= |nums| ==> n == NaN
  {
    if i < |nums| then ParseInt(nums[i], false) else NaN
  }

  /** The click listener's inline conversion of an `rgb`-prefixed colour.
      Version 0.2.5 converts only when there are at least three components;
      version 0.2.6 has no such guard. Other colours are kept. */
  function NormaliseClickColour(color: Option<string>, v: Version): (r: Option<string>)
    ensures !(Truthy(color) && StartsWith(color.value, "rgb")) ==> r == color
    ensures v == V025 && Truthy(color) && |RgbComponents(color.value)| < 3 ==> r == color
    ensures r != color ==> r.Some? && |r.value| > 0 && r.value[0] == '#'
  {
    if Truthy(color) && StartsWith(color.value, "rgb") then
      var nums := RgbComponents(color.value);
      match v
      case V025 =>
        if |nums| >= 3 then Some(EncodeRgb(Component(nums, 0), Component(nums, 1), Component(nums, 2)))
        else color
      case V026 => Some(EncodeRgb(Component(nums, 0), Component(nums, 1), Component(nums, 2)))
    else color
  }

  /** With three or more components both versions convert exactly as
      `toHexFromRgbString` does. */
  lemma NormaliseAgreesWithConversion(color: string, v: Version)
    requires StartsWith(color, "rgb") && |RgbComponents(color)| >= 3
    ensures NormaliseClickColour(Some(color), v) == ToHexFromRgbString(Some(color))
  {
    assert color[0] == 'r';
    var nums := RgbComponents(color);
    var hex := Some(EncodeRgb(ParseInt(nums[0], false), ParseInt(nums[1], false), ParseInt(nums[2], false)));
    assert ToHexFromRgbString(Some(color)) == hex;
    assert Component(nums, 0) == ParseInt(nums[0], false);
    assert Component(nums, 1) == ParseInt(nums[1], false);
    assert Component(nums, 2) == ParseInt(nums[2], false);
  }

  /** With fewer than three components version 0.2.6 writes the text `#aN`
      (the blue channel is `NaN`), where version 0.2.5 keeps the colour and
      `toHexFromRgbString` gives `null`. */
  lemma MissingGuardGivesNaNText(color: string)
    requires StartsWith(color, "rgb") && |RgbComponents(color)| < 3
    ensures NormaliseClickColour(Some(color), V026) == Some("#aN")
    ensures NormaliseClickColour(Some(color), V025) == Some(color)
    ensures ToHexFromRgbString(Some(color)) == None
  {
    assert color[0] == 'r';
  }

  /** A browser-reported colour is converted by both versions, to the hex
      text whose channels read back as the colour's. */
  lemma NormaliseCssRgb(r: nat, g: nat, b: nat, v: Version)
    requires r < 256 && g < 256 && b < 256
    ensures NormaliseClickColour(Some(CssRgb(r, g, b)), v) == Some(EncodeRgb(Num(r), Num(g), Num(b)))
  {
    CssRgbRoundTrip(r, g, b);
    CssRgbComponents(r, g, b);
    CssRgbIsRgb(r, g, b);
    NormaliseAgreesWithConversion(CssRgb(r, g, b), v);
  }

  /** An element matched by `[data-led-color]`: the attribute's value and
      whether it carries the `selected` class. */
  datatype ColourButton = ColourButton(ledColor: string, selected: bool)

  /** Clear `selected` on every `[data-led-color]` element. */
  function ClearSelection(buttons: seq<ColourButton>): seq<ColourButton> {
    seq(|buttons|, i requires 0 <= i < |buttons| => buttons[i].(selected := false))
  }

  /** Then add it to the clicked element, when that is one of them. */
  function MarkSelection(buttons: seq<ColourButton>, clicked: Option<nat>): (out: seq<ColourButton>)
    requires clicked.Some? ==> clicked.value < |buttons|
    ensures |out| == |buttons|
    ensures forall i | 0 <= i < |out| :: out[i].ledColor == buttons[i].ledColor
    ensures forall i | 0 <= i < |out| :: out[i].selected <==> clicked == Some(i)
  {
    var cleared := ClearSelection(buttons);
    match clicked
    case None => cleared
    case Some(k) => cleared[k := cleared[k].(selected := true)]
  }

  /** The storage and paint a colour click leaves behind, and the new
      selection. */
  datatype ClickEffect = ClickEffect(storage: Storage, paint: Option<LedPaint>, buttons: seq<ColourButton>)

  /** A click on a colour button: pick and normalise the colour; if that is
      truthy, save it and paint with it; then move the selection to the
      clicked element. When saving throws, the listener stops there: nothing
      is painted and the selection stays where it was. */
  function ColourClick(t: ColourTarget, v: Version, storage: Storage, available: bool,
                       buttons: seq<ColourButton>, clicked: Option<nat>): (e: ClickEffect)
    requires clicked.Some? ==> clicked.value < |buttons|
    ensures Truthy(NormaliseClickColour(ClickedColour(t, v), v)) && available
            ==> Get(e.storage, ColorKey) == NormaliseClickColour(ClickedColour(t, v), v)
                && e.paint.Some? && e.paint.value == ApplyLedColor(Get(e.storage, ColorKey), v).value
    ensures !Truthy(NormaliseClickColour(ClickedColour(t, v), v)) ==> e.storage == storage && e.paint.None?
    ensures !available ==> e.storage == storage
    ensures Truthy(NormaliseClickColour(ClickedColour(t, v), v)) && !available ==> e.paint.None? && e.buttons == buttons
    ensures forall k | k in storage && k != ColorKey :: k in e.storage && e.storage[k] == storage[k]
    ensures e.storage.Keys <= storage.Keys + {ColorKey}
    ensures available || !Truthy(NormaliseClickColour(ClickedColour(t, v), v))
            ==> e.buttons == MarkSelection(buttons, clicked)
  {
    var color := NormaliseClickColour(ClickedColour(t, v), v);
    if Truthy(color) && !available then ClickEffect(storage, None, buttons)
    else
      var st := if Truthy(color) then storage[ColorKey := color.value] else storage;
      ClickEffect(st, ApplyLedColor(color, v), MarkSelection(buttons, clicked))
  }

  /* ---------------------------------------------------------------------- */
  /* Background tint (0.2.6)                                                */
  /* ---------------------------------------------------------------------- */

  /** The tint layer's colour: a seven-character colour gets the alpha
      suffix `40`; anything else is used as stored. */
  function TintBackground(stored: string): (bg: string)
    ensures |bg| >= |stored| && bg[..|stored|] == stored
    ensures |stored| == 7 ==> |bg| == 9 && bg[7..] == "40"
    ensures |stored| != 7 ==> bg == stored
  {
    if |stored| == 7 then stored + "40" else stored
  }

  /** The tint laid over the scroller area when a colour is stored, absent
      otherwise. The old tint is removed before storage is read, so storage
      that throws leaves no tint. */
  function TintOverlay(storage: Storage, available: bool): (tint: Option<string>)
    ensures tint.Some? <==> available && Truthy(Get(storage, ColorKey))
    ensures tint.Some? ==> ColorKey in storage && StartsWith(tint.value, storage[ColorKey])
    ensures tint.Some? ==> tint.value == TintBackground(storage[ColorKey])
  {
    var stored := Get(storage, ColorKey);
    if available && Truthy(stored) then Some(TintBackground(stored.value)) else None
  }

  /** After a version 0.2.6 click that picks a palette-style colour, the
      overlay is that colour at a quarter alpha. */
  lemma TintAfterClick(t: ColourTarget, storage: Storage, buttons: seq<ColourButton>, clicked: Option<nat>)
    requires clicked.Some? ==> clicked.value < |buttons|
    requires Truthy(t.ledColor) && |t.ledColor.value| == 7 && t.ledColor.value[0] == '#'
    ensures TintOverlay(ColourClick(t, V026, storage, true, buttons, clicked).storage, true) == Some(t.ledColor.value + "40")
  {
    assert !StartsWith(t.ledColor.value, "rgb");
  }

  /* ---------------------------------------------------------------------- */
  /* Input persistence and restore                                          */
  /* ---------------------------------------------------------------------- */

  const MessageInputId := "marqueeText"
  const SpeedInputId := "speedRange"

  /** The input listener: the message box saves to the message key, the speed
      slider to the speed key, any other element saves nothing; a write that
      throws saves nothing either. */
  function PersistInput(storage: Storage, available: bool, targetId: string, value: string): (st: Storage)
    ensures available && targetId == MessageInputId ==> Get(st, MessageKey) == Some(value)
    ensures available && targetId == SpeedInputId ==> Get(st, SpeedKey) == Some(value)
    ensures !available || (targetId != MessageInputId && targetId != SpeedInputId) ==> st == storage
    ensures forall k | k in storage && k != MessageKey && k != SpeedKey :: k in st && st[k] == storage[k]
    ensures st.Keys <= storage.Keys + {MessageKey, SpeedKey}
  {
    if !available then storage
    else if targetId == MessageInputId then storage[MessageKey := value]
    else if targetId == SpeedInputId then storage[SpeedKey := value]
    else storage
  }

  /** On load the inputs take the stored message and speed, each only when
      it is truthy; storage that throws skips the restore. */
  function RestoreInputs(storage: Storage, available: bool, text: string, speed: string): (inputs: (string, string))
    ensures !available ==> inputs == (text, speed)
    ensures available && Truthy(Get(storage, MessageKey)) ==> inputs.0 == storage[MessageKey]
    ensures available && !Truthy(Get(storage, MessageKey)) ==> inputs.0 == text
    ensures available && Truthy(Get(storage, SpeedKey)) ==> inputs.1 == storage[SpeedKey]
    ensures available && !Truthy(Get(storage, SpeedKey)) ==> inputs.1 == speed
  {
    if !available then (text, speed)
    else (Or(Get(storage, MessageKey), Some(text)).value, Or(Get(storage, SpeedKey), Some(speed)).value)
  }

  /** A typed message survives a reload, both into the script's restored
      input and into the scroller's own settings; an empty one does not. */
  lemma MessageRoundTrip(storage: Storage, value: string, text: string, speed: string)
    ensures value != "" ==> RestoreInputs(PersistInput(storage, true, MessageInputId, value), true, text, speed).0 == value
    ensures value == "" ==> RestoreInputs(PersistInput(storage, true, MessageInputId, value), true, text, speed).0 == text
    ensures LoadSettings(PersistInput(storage, true, MessageInputId, value), true).text
            == (if value != "" then value else DefaultText)
  {
  }

  /** A slider position survives a reload into the scroller's speed. */
  lemma SpeedRoundTrip(storage: Storage, speed: int)
    requires speed != 0
    ensures LoadSettings(PersistInput(storage, true, SpeedInputId, IntToString(speed)), true).speed == speed
  {
    IntStringRoundTrip(speed);
  }

  /** On load, the stored colour is painted. With none stored, version 0.2.5
      paints the colour of the button already marked selected, if any.
      Storage that throws skips the restore. */
  function RestoreColour(storage: Storage, available: bool, selectedLedColor: Option<string>, v: Version)
    : (p: Option<LedPaint>)
    ensures !available ==> p.None?
    ensures available && Truthy(Get(storage, ColorKey)) ==> p.Some? && p == ApplyLedColor(Get(storage, ColorKey), v)
    ensures v == V025 && available && !Truthy(Get(storage, ColorKey)) && Truthy(selectedLedColor)
            ==> p.Some? && p.value.color == selectedLedColor
    ensures !Truthy(Get(storage, ColorKey)) && !Truthy(selectedLedColor) ==> p.None?
    ensures v == V026 && !Truthy(Get(storage, ColorKey)) ==> p.None?
  {
    var stored := Get(storage, ColorKey);
    if !available then None
    else if Truthy(stored) then ApplyLedColor(stored, v)
    else if v == V025 && selectedLedColor.Some? then ApplyLedColor(selectedLedColor, v)
    else None
  }

  /** A reload paints the colour a click painted, whether or not storage
      works. */
  lemma ClickThenRestorePaintsSame(t: ColourTarget, v: Version, storage: Storage, available: bool,
                                   buttons: seq<ColourButton>, clicked: Option<nat>, selected: Option<string>)
    requires clicked.Some? ==> clicked.value < |buttons|
    requires Truthy(NormaliseClickColour(ClickedColour(t, v), v))
    ensures RestoreColour(ColourClick(t, v, storage, available, buttons, clicked).storage, available, selected, v)
            == ColourClick(t, v, storage, available, buttons, clicked).paint
  {
  }

  /** Version 0.2.5 also marks every button whose attribute equals the stored
      colour; marks already present stay. */
  function MarkStoredColour(buttons: seq<ColourButton>, stored: Option<string>): (out: seq<ColourButton>)
    ensures |out| == |buttons|
    ensures forall i | 0 <= i < |out| :: out[i].ledColor == buttons[i].ledColor
    ensures forall i | 0 <= i < |out| ::
              out[i].selected <==> buttons[i].selected || (Truthy(stored) && buttons[i].ledColor == stored.value)
  {
    if !Truthy(stored) then buttons
    else seq(|buttons|, i requires 0 <= i < |buttons| =>
               if buttons[i].ledColor == stored.value then buttons[i].(selected := true) else buttons[i])
  }

  /** A click on a button with a non-`rgb` colour attribute saves that
      attribute, in either version, when storage works; otherwise the stored
      colour stays. */
  lemma ClickSavesAttribute(t: ColourTarget, v: Version, storage: Storage, available: bool,
                            buttons: seq<ColourButton>, clicked: Option<nat>)
    requires clicked.Some? ==> clicked.value < |buttons|
    requires Truthy(t.ledColor) && !StartsWith(t.ledColor.value, "rgb")
    ensures Get(ColourClick(t, v, storage, available, buttons, clicked).storage, ColorKey)
            == if available then t.ledColor else Get(storage, ColorKey)
  {
  }

  /** With distinct palette attributes, clicking a palette button and then
      reloading onto an unmarked page marks that button and no other, the
      same marking the click left. */
  lemma {:induction false} ClickThenRestoreMarksSame(t: ColourTarget, storage: Storage, buttons: seq<ColourButton>, k: nat)
    requires k < |buttons|
    requires forall i, j | 0 <= i < j < |buttons| :: buttons[i].ledColor != buttons[j].ledColor
    requires forall i | 0 <= i < |buttons| :: !buttons[i].selected
    requires t.ledColor == Some(buttons[k].ledColor) && buttons[k].ledColor != ""
    requires !StartsWith(buttons[k].ledColor, "rgb")
    ensures ColourClick(t, V025, storage, true, buttons, Some(k)).buttons
            == MarkStoredColour(buttons, Get(ColourClick(t, V025, storage, true, buttons, Some(k)).storage, ColorKey))
  {
    ClickSavesAttribute(t, V025, storage, true, buttons, Some(k));
    MarkingsAgree(buttons, k);
  }

  /** On an unmarked page with distinct attributes, marking the clicked
      button and marking the buttons with its colour are the same. */
  lemma MarkingsAgree(buttons: seq<ColourButton>, k: nat)
    requires k < |buttons|
    requires forall i, j | 0 <= i < j < |buttons| :: buttons[i].ledColor != buttons[j].ledColor
    requires forall i | 0 <= i < |buttons| :: !buttons[i].selected
    requires buttons[k].ledColor != ""
    ensures MarkSelection(buttons, Some(k)) == MarkStoredColour(buttons, Some(buttons[k].ledColor))
  {
    var clicked := MarkSelection(buttons, Some(k));
    var marked := MarkStoredColour(buttons, Some(buttons[k].ledColor));
    forall i | 0 <= i < |buttons| ensures marked[i] == clicked[i] {
      if i < k {
        assert buttons[i].ledColor != buttons[k].ledColor;
      } else if k < i {
        assert buttons[k].ledColor != buttons[i].ledColor;
      }
    }
  }
}

=== FILE: colour.dfy ===
/**
 * Colour helpers shared by the scroller and the adaptive-theme scripts:
 * the black/white contrast choice, the `rgb(r, g, b)` to `#rrggbb`
 * conversion, and the LED glow text-shadow.
 *
 * Several lemmas about the hexadecimal encoding take the digit widths 2, 4
 * and 6 as parameters `two`, `four` and `six` pinned by a precondition,
 * rather than as literals: on a literal width the solver unfolds `Fixed` and
 * `Pow16` digit by digit, while a parameter keeps each proof to the one
 * step it needs.
 */
module Colour {
  import opened Wrappers
  import opened JsText

  const Black := "#000"
  const White := "#fff"

  /** Brightness threshold of the scroller's own `contrast`. */
  const ScrollerThreshold := 180
  /** Brightness threshold of the adaptive-theme scripts' `contrast`. */
  const ThemeThreshold := 150

  /** The weighted channel sum; the source divides it by 1000 and compares the
      quotient with the threshold, which is the same as comparing the sum
      with a thousand times the threshold. */
  function Luma(r: int, g: int, b: int): int {
    299 * r + 587 * g + 114 * b
  }

  /* ---------------------------------------------------------------------- */
  /* contrast                                                               */
  /* ---------------------------------------------------------------------- */

  /** The three channels `contrast` reads: drop the first `#`, then parse the
      character pairs at 0, 2 and 4 in radix 16. */
  function Channels(hex: string): (JsNumber, JsNumber, JsNumber) {
    var c := RemoveFirst(hex, '#');
    (ParseInt(Slice(c, 0, 2), true), ParseInt(Slice(c, 2, 4), true), ParseInt(Slice(c, 4, 6), true))
  }

  /** The adaptive-theme scripts read the same pairs with `substr(i, 2)`. */
  function ThemeChannels(hex: string): (JsNumber, JsNumber, JsNumber) {
    var c := RemoveFirst(hex, '#');
    (ParseInt(Substr(c, 0, 2), true), ParseInt(Substr(c, 2, 2), true), ParseInt(Substr(c, 4, 2), true))
  }

  /** Both ways of reading the channels give the same numbers, so one
      `Contrast` with the threshold as a parameter serves all three scripts. */
  lemma ThemeChannelsAgree(hex: string)
    ensures ThemeChannels(hex) == Channels(hex)
  {
  }

  /** `contrast(hex)`: black text when the colour is brighter than the
      threshold, white text otherwise, and white for a missing colour. A
      channel that does not parse makes the brightness `NaN`, and `NaN` is
      never above the threshold. */
  function Contrast(hex: Option<string>, threshold: int): (r: string)
    ensures r == Black || r == White
    ensures !Truthy(hex) ==> r == White
  {
    if !Truthy(hex) then White
    else ContrastOfTriple(Channels(hex.value), threshold)
  }

  /** The text colour for three parsed channels. */
  function ContrastOfTriple(ch: (JsNumber, JsNumber, JsNumber), threshold: int): string {
    match ch
    case (Num(r), Num(g), Num(b)) => if Luma(r, g, b) > threshold * 1000 then Black else White
    case _ => White
  }

  /** A well-formed `#RRGGBB` colour, in either letter case. */
  predicate IsHexColour(s: string) {
    |s| == 7 && s[0] == '#' && forall i | 1 <= i < 7 :: IsDigit(s[i], true)
  }

  /** The value of the two hexadecimal digits at `i` and `i + 1`. */
  function PairValue(s: string, i: nat): nat
    requires i + 1 < |s| && IsDigit(s[i], true) && IsDigit(s[i + 1], true)
  {
    16 * DigitValue(s[i]) + DigitValue(s[i + 1])
  }

  lemma ParsePair(p: string)
    requires |p| == 2 && AllDigits(p, true)
    ensures ParseInt(p, true) == Num(PairValue(p, 0))
  {
    ParseIntOfDigits(p, true);
    PairDigitsValue(p);
  }

  lemma PairDigitsValue(p: string)
    requires |p| == 2 && AllDigits(p, true)
    ensures DigitsValue(p, true) == PairValue(p, 0)
  {
    var p1 := p[..1];
    assert p1[..0] == "";
    assert DigitsValue(p1, true) == DigitValue(p[0]);
  }

  /** Two digits sliced out of a longer text parse to their pair value. */
  lemma PairAt(c: string, i: nat, end: nat)
    requires end == i + 2 && end <= |c| && IsDigit(c[i], true) && IsDigit(c[i + 1], true)
    ensures ParseInt(Slice(c, i, end), true) == Num(PairValue(c, i))
  {
    PairSlice(c, i, end);
    ParsePair(c[i..end]);
  }

  lemma PairSlice(c: string, i: nat, end: nat)
    requires end == i + 2 && end <= |c| && IsDigit(c[i], true) && IsDigit(c[i + 1], true)
    ensures Slice(c, i, end) == c[i..end]
    ensures |c[i..end]| == 2 && AllDigits(c[i..end], true)
    ensures PairValue(c[i..end], 0) == PairValue(c, i)
  {
    var p := c[i..end];
    assert p[0] == c[i] && p[1] == c[i + 1];
  }

  /** The channel `contrast` reads at `i - 1` of the text after `#` is the
      pair at `i` of the colour. */
  lemma ChannelAt(s: string, c: string, i: nat)
    requires IsHexColour(s) && c == s[1..] && 1 <= i <= 5
    ensures IsDigit(s[i], true) && IsDigit(s[i + 1], true)
    ensures ParseInt(Slice(c, i - 1, i + 1), true) == Num(PairValue(s, i))
  {
    assert c[i - 1] == s[i] && c[i] == s[i + 1];
    assert PairValue(c, i - 1) == PairValue(s, i);
    PairAt(c, i - 1, i + 1);
  }

  /** For a well-formed colour, `contrast` reads exactly its three channel
      values. */
  lemma ChannelsOfHexColour(s: string)
    requires IsHexColour(s)
    ensures Channels(s) == (Num(PairValue(s, 1)), Num(PairValue(s, 3)), Num(PairValue(s, 5)))
  {
    var c := s[1..];
    assert RemoveFirst(s, '#') == c;
    ChannelAt(s, c, 1);
    ChannelAt(s, c, 3);
    ChannelAt(s, c, 5);
  }

  /** On a well-formed colour `contrast` is black exactly when the weighted
      channel sum exceeds a thousand times the threshold. */
  lemma ContrastOfHexColour(s: string, threshold: int)
    requires IsHexColour(s)
    ensures Contrast(Some(s), threshold) == Black
            <==> Luma(PairValue(s, 1), PairValue(s, 3), PairValue(s, 5)) > threshold * 1000
  {
    var r, g, b := PairValue(s, 1), PairValue(s, 3), PairValue(s, 5);
    ChannelsOfHexColour(s);
    ContrastOfText(s, threshold);
    ContrastOfNumbers(r, g, b, threshold);
  }
  /** The contrast rule on an optional colour, stated for the hex case: the
      form the callers that paint a colour need. */
  lemma ContrastWhenHex(hex: Option<string>, threshold: int)
    ensures hex.Some? && IsHexColour(hex.value) ==>
              (Contrast(hex, threshold) == Black
               <==> Luma(PairValue(hex.value, 1), PairValue(hex.value, 3), PairValue(hex.value, 5)) > threshold * 1000)
  {
    if hex.Some? && IsHexColour(hex.value) {
      ContrastOfHexColour(hex.value, threshold);
    }
  }


  /** Three parsed channels give black text exactly above the threshold. */
  lemma ContrastOfNumbers(r: int, g: int, b: int, threshold: int)
    ensures ContrastOfTriple((Num(r), Num(g), Num(b)), threshold) == Black
            <==> Luma(r, g, b) > threshold * 1000
  {
  }

  /** A non-empty colour is judged on the three channels read from it. */
  lemma ContrastOfText(hex: string, threshold: int)
    requires hex != ""
    ensures Contrast(Some(hex), threshold) == ContrastOfTriple(Channels(hex), threshold)
  {
  }

  /** Black under the scroller's threshold implies black under the themes'
      lower threshold. */
  lemma ContrastThresholdsNest(hex: Option<string>)
    ensures Contrast(hex, ScrollerThreshold) == Black ==> Contrast(hex, ThemeThreshold) == Black
  {
  }

  /* ---------------------------------------------------------------------- */
  /* rgb(r, g, b) -> #rrggbb                                                */
  /* ---------------------------------------------------------------------- */

  /** ECMAScript ToInt32 on an integral number; `NaN` becomes 0. */
  function ToInt32(x: JsNumber): (r: int)
    ensures -0x8000_0000 <= r < 0x8000_0000
    ensures x.Num? && -0x8000_0000 <= x.value < 0x8000_0000 ==> r == x.value
    ensures x.NaN? ==> r == 0
    ensures x.Num? ==> (r - x.value) % 0x1_0000_0000 == 0
  {
    match x
    case NaN => 0
    case Num(v) => Wrap32(v)
  }

  function Wrap32(v: int): (r: int)
    ensures -0x8000_0000 <= r < 0x8000_0000
    ensures (r - v) % 0x1_0000_0000 == 0
    ensures -0x8000_0000 <= v < 0x8000_0000 ==> r == v
  {
    (v + 0x8000_0000) % 0x1_0000_0000 - 0x8000_0000
  }

  /** `"#" + ((1<<24) + (r<<16) + (g<<8) + b).toString(16).slice(1)`: the
      shifts wrap to 32 bits, the additions do not, and a `NaN` blue channel
      makes the whole sum `NaN`, whose text is `"NaN"`. */
  function EncodeRgb(r: JsNumber, g: JsNumber, b: JsNumber): (hex: string)
    ensures |hex| >= 1 && hex[0] == '#'
  {
    match b
    case NaN => "#aN"
    case Num(bv) =>
      var text := NumberToHex(0x100_0000 + Wrap32(ToInt32(r) * 0x1_0000) + Wrap32(ToInt32(g) * 0x100) + bv);
      "#" + text[1..]
  }

  /** For channels 0..255 the encoder writes `#` and six zero-padded
      lower-case digits, two per channel. */
  lemma EncodeInRange(r: nat, g: nat, b: nat)
    requires r < 256 && g < 256 && b < 256
    ensures EncodeRgb(Num(r), Num(g), Num(b)) == "#" + HexByte(r) + HexByte(g) + HexByte(b)
  {
    EncodeAsHex(r, g, b);
    TailDigits(r, g, b, 2, 6);
  }

  lemma EncodeAsHex(r: nat, g: nat, b: nat)
    requires r < 256 && g < 256 && b < 256
    ensures EncodeRgb(Num(r), Num(g), Num(b)) == "#" + NumberToHex(0x100_0000 + (r * 0x1_0000 + g * 0x100 + b))[1..]
  {
    PackBounds(r, g, b);
    assert Wrap32(r * 0x1_0000) == r * 0x1_0000;
    assert Wrap32(g * 0x100) == g * 0x100;
  }

  lemma TailDigits(r: nat, g: nat, b: nat, two: nat, six: nat)
    requires r < 256 && g < 256 && b < 256 && two == 2 && six == 6
    ensures NumberToHex(0x100_0000 + (r * 0x1_0000 + g * 0x100 + b))[1..] == HexByte(r) + HexByte(g) + HexByte(b)
  {
    FixedTwo(r, two);
    FixedTwo(g, two);
    FixedTwo(b, two);
    var x := r * 0x1_0000 + g * 0x100 + b;
    PackBounds(r, g, b);
    LeadingOne(x, six);
    SixDigits(r, g, b, two, six - two);
    assert ("1" + Fixed(x, six))[1..] == Fixed(x, six);
  }

  /** A number between 16^6 and 2 * 16^6 is written as `1` and six more
      digits. */
  lemma LeadingOne(x: nat, six: nat)
    requires six == 6 && x < 0x100_0000
    ensures NumberToHex(0x100_0000 + x) == "1" + Fixed(x, six)
  {
    Pow16Values();
    ShiftedIsProduct(1, six);
    HexShift(1, x, six);
    assert Hex(1) == "1";
  }

  /** Six fixed digits are two per channel. */
  lemma SixDigits(r: nat, g: nat, b: nat, two: nat, four: nat)
    requires r < 256 && g < 256 && b < 256 && two == 2 && four == 4
    ensures Fixed(r * 0x1_0000 + g * 0x100 + b, two + four) == Fixed(r, two) + Fixed(g, two) + Fixed(b, two)
  {
    var low := g * 0x100 + b;
    HighPair(r, low, two, four);
    LowPairs(g, b, two, four);
    AppendAssoc(Fixed(r, two), Fixed(g, two), Fixed(b, two));
  }

  /** The red pair comes first, then four digits for green and blue. */
  lemma HighPair(r: nat, low: nat, two: nat, four: nat)
    requires r < 256 && low < 0x1_0000 && two == 2 && four == 4
    ensures Fixed(r * 0x1_0000 + low, two + four) == Fixed(r, two) + Fixed(low, four)
  {
    Pow16Values();
    ShiftedValues(r, two, four);
    FixedConcat(r, low, two, four);
  }

  /** The green pair, then the blue pair. */
  lemma LowPairs(g: nat, b: nat, two: nat, four: nat)
    requires g < 256 && b < 256 && two == 2 && four == 4
    ensures Fixed(g * 0x100 + b, four) == Fixed(g, two) + Fixed(b, two)
  {
    Pow16Values();
    ShiftedValues(g, two, four);
    FixedConcat(g, b, two, two);
  }

  lemma ShiftedValues(a: nat, two: nat, four: nat)
    requires two == 2 && four == 4
    ensures Shifted(a, two) == a * 0x100 && Shifted(a, four) == a * 0x1_0000
  {
    assert Shifted(a, 1) == 16 * a;
    assert Shifted(a, 2) == 0x100 * a;
    assert Shifted(a, 3) == 0x1000 * a;
    assert Shifted(a, 4) == 0x1_0000 * a;
  }

  lemma PackBounds(r: nat, g: nat, b: nat)
    requires r < 256 && g < 256 && b < 256
    ensures g * 0x100 + b < 0x1_0000
    ensures r * 0x1_0000 + g * 0x100 + b < 0x100_0000
    ensures r * 0x1_0000 < 0x8000_0000 && g * 0x100 < 0x8000_0000
  {
    assert g * 0x100 <= 255 * 0x100;
    assert r * 0x1_0000 <= 255 * 0x1_0000;
  }

  lemma Pow16Values()
    ensures Pow16(2) == 0x100 && Pow16(4) == 0x1_0000 && Pow16(6) == 0x100_0000
  {
    assert Pow16(1) == 16;
    assert Pow16(3) == 0x1000;
    assert Pow16(5) == 0x10_0000;
  }

  /** What `contrast` parses out of an encoded colour is the channels that
      went in. */
  lemma EncodeThenChannels(r: nat, g: nat, b: nat)
    requires r < 256 && g < 256 && b < 256
    ensures IsHexColour(EncodeRgb(Num(r), Num(g), Num(b)))
    ensures Channels(EncodeRgb(Num(r), Num(g), Num(b))) == (Num(r), Num(g), Num(b))
  {
    EncodeInRange(r, g, b);
    var hex := EncodeRgb(Num(r), Num(g), Num(b));
    var c := HexByte(r) + HexByte(g) + HexByte(b);
    assert hex == "#" + c;
    assert hex[1..] == c;
    assert IsHexColour(hex);
    assert RemoveFirst(hex, '#') == c;
    assert Slice(c, 0, 2) == HexByte(r);
    assert Slice(c, 2, 4) == HexByte(g);
    assert Slice(c, 4, 6) == HexByte(b);
    HexByteParse(r);
    HexByteParse(g);
    HexByteParse(b);
  }

  /** `s.replace(/rgba?\(|\)|\s/g, '')`: one left-to-right scan that deletes
      every `rgba(` or `rgb(`, every `)` and every white-space character. */
  function StripRgbSyntax(s: string): (r: string)
    ensures |r| <= |s|
    ensures forall i | 0 <= i < |r| :: r[i] != ')' && !IsSpace(r[i])
    ensures multiset(r)[','] == multiset(s)[',']
    decreases |s|
  {
    if |s| == 0 then ""
    else if StartsWith(s, "rgba(") then CommasAfter(s, 5); StripRgbSyntax(s[5..])
    else if StartsWith(s, "rgb(") then CommasAfter(s, 4); StripRgbSyntax(s[4..])
    else if s[0] == ')' || IsSpace(s[0]) then CommasAfter(s, 1); StripRgbSyntax(s[1..])
    else assert s == [s[0]] + s[1..]; [s[0]] + StripRgbSyntax(s[1..])
  }

  /** Dropping a comma-free prefix keeps every comma. */
  lemma CommasAfter(s: string, k: nat)
    requires k <= |s| && ',' !in s[..k]
    ensures multiset(s[k..])[','] == multiset(s)[',']
  {
    assert s == s[..k] + s[k..];
  }

  /** The comma-separated pieces the conversion reads channels from. */
  function RgbComponents(s: string): seq<string> {
    Split(StripRgbSyntax(s), ',')
  }

  /** `toHexFromRgbString(rgb)`. */
  function ToHexFromRgbString(rgb: Option<string>): (r: Option<string>)
    ensures !Truthy(rgb) ==> r == None
    ensures Truthy(rgb) && rgb.value[0] == '#' ==> r == rgb
    ensures Truthy(rgb) && rgb.value[0] != '#' ==> (r == None <==> |RgbComponents(rgb.value)| < 3)
    ensures r.Some? ==> |r.value| >= 1 && r.value[0] == '#'
  {
    if !Truthy(rgb) then None
    else if rgb.value[0] == '#' then rgb
    else
      var nums := RgbComponents(rgb.value);
      if |nums| < 3 then None
      else Some(EncodeRgb(ParseInt(nums[0], false), ParseInt(nums[1], false), ParseInt(nums[2], false)))
  }

  /** The text a browser reports for a colour, `rgb(r, g, b)`. */
  function CssRgb(r: nat, g: nat, b: nat): string {
    "rgb(" + Dec(r) + ", " + Dec(g) + ", " + Dec(b) + ")"
  }

  /** A character that is neither `r`, `)` nor white space is kept. */
  lemma StripKeeps(s: string)
    requires |s| > 0 && s[0] != 'r' && s[0] != ')' && !IsSpace(s[0])
    ensures StripRgbSyntax(s) == [s[0]] + StripRgbSyntax(s[1..])
  {
    NotRgbPrefix(s);
  }

  /** A `)` or a white-space character is deleted. */
  lemma StripDrops(s: string)
    requires |s| > 0 && (s[0] == ')' || IsSpace(s[0]))
    ensures StripRgbSyntax(s) == StripRgbSyntax(s[1..])
  {
    NotRgbPrefix(s);
  }

  lemma NotRgbPrefix(s: string)
    requires |s| > 0 && s[0] != 'r'
    ensures !StartsWith(s, "rgba(") && !StartsWith(s, "rgb(")
  {
    if |s| >= 4 { assert s[..4][0] == s[0]; }
    if |s| >= 5 { assert s[..5][0] == s[0]; }
  }

  /** Decimal digits pass through the scan unchanged. */
  lemma {:induction false} StripDigits(d: string, rest: string)
    requires AllDigits(d, false)
    ensures StripRgbSyntax(d + rest) == d + StripRgbSyntax(rest)
    decreases |d|
  {
    if |d| > 0 {
      var s := d + rest;
      assert s[0] == d[0] && IsDigit(d[0], false);
      StripKeeps(s);
      assert s[1..] == d[1..] + rest;
      StripDigits(d[1..], rest);
      assert d == [d[0]] + d[1..];
      AppendAssoc([d[0]], d[1..], StripRgbSyntax(rest));
    } else {
      assert d + rest == rest;
    }
  }

  lemma StripCommaSpace(rest: string)
    ensures StripRgbSyntax(", " + rest) == "," + StripRgbSyntax(rest)
  {
    var s, u := ", " + rest, " " + rest;
    assert s[0] == ',' && s[1..] == u;
    assert u[0] == ' ' && u[1..] == rest;
    StripKeeps(s);
    StripDrops(u);
  }

  /** A comma, a space and a channel's digits lose only the space. */
  lemma StripCommaDigits(d: string, rest: string)
    requires AllDigits(d, false)
    ensures StripRgbSyntax(", " + d + rest) == "," + d + StripRgbSyntax(rest)
  {
    AppendAssoc(", ", d, rest);
    StripCommaSpace(d + rest);
    StripDigits(d, rest);
    AppendAssoc(",", d, StripRgbSyntax(rest));
  }

  /** A leading `rgb(` is deleted. */
  lemma StripRgbOpen(tail: string)
    ensures StripRgbSyntax("rgb(" + tail) == StripRgbSyntax(tail)
  {
    var s := "rgb(" + tail;
    assert s[..4] == "rgb(";
    assert |s| >= 5 ==> s[..5][3] == '(';
    assert s[4..] == tail;
  }

  lemma StripCloseParen()
    ensures StripRgbSyntax(")") == ""
  {
    StripDrops(")");
    assert ")"[1..] == "";
  }

  /** The browser's layout, regrouped from the right. */
  lemma CssRgbRegroup(x: string, y: string, z: string)
    ensures "rgb(" + x + ", " + y + ", " + z + ")" == "rgb(" + (x + (", " + y + (", " + z + ")")))
  {
  }

  lemma ChannelsRegroup(x: string, y: string, z: string)
    ensures x + ("," + y + ("," + z + "")) == x + "," + y + "," + z
  {
  }

  /** Stripping `rgb(x, y, z)` with digit channels leaves the channels
      separated by bare commas. */
  lemma StripChannels(x: string, y: string, z: string)
    requires AllDigits(x, false) && AllDigits(y, false) && AllDigits(z, false)
    ensures StripRgbSyntax("rgb(" + x + ", " + y + ", " + z + ")") == x + "," + y + "," + z
  {
    var t3 := ", " + z + ")";
    var t2 := ", " + y + t3;
    calc {
      StripRgbSyntax("rgb(" + x + ", " + y + ", " + z + ")");
      { CssRgbRegroup(x, y, z); }
      StripRgbSyntax("rgb(" + (x + t2));
      { StripRgbOpen(x + t2); }
      StripRgbSyntax(x + t2);
      { StripDigits(x, t2); }
      x + StripRgbSyntax(t2);
      { StripCommaDigits(y, t3); }
      x + ("," + y + StripRgbSyntax(t3));
      { StripCommaDigits(z, ")"); }
      x + ("," + y + ("," + z + StripRgbSyntax(")")));
      { StripCloseParen(); }
      x + ("," + y + ("," + z + ""));
      { ChannelsRegroup(x, y, z); }
      x + "," + y + "," + z;
    }
  }

  /** Stripping a browser colour string leaves the channels separated by
      bare commas. */
  lemma StripCssRgb(r: nat, g: nat, b: nat)
    ensures StripRgbSyntax(CssRgb(r, g, b)) == Dec(r) + "," + Dec(g) + "," + Dec(b)
  {
    StripChannels(Dec(r), Dec(g), Dec(b));
  }

  /** The components of a browser colour string are the three decimal
      channel texts. */
  lemma CssRgbComponents(r: nat, g: nat, b: nat)
    ensures RgbComponents(CssRgb(r, g, b)) == [Dec(r), Dec(g), Dec(b)]
  {
    StripCssRgb(r, g, b);
    NoCommaInDigits(Dec(r));
    NoCommaInDigits(Dec(g));
    NoCommaInDigits(Dec(b));
    SplitThree(Dec(r), Dec(g), Dec(b));
  }

  lemma SplitThree(a: string, b: string, c: string)
    requires ',' !in a && ',' !in b && ',' !in c
    ensures Split(a + "," + b + "," + c, ',') == [a, b, c]
  {
    var rest := b + [','] + c;
    assert a + "," + b + "," + c == a + [','] + rest;
    SplitAppend(b, c, ',');
    SplitNoSep(c, ',');
    SplitAppend(a, rest, ',');
  }

  lemma NoCommaInDigits(d: string)
    requires AllDigits(d, false)
    ensures ',' !in d
  {
    forall i | 0 <= i < |d| ensures d[i] != ',' {
      assert IsDigit(d[i], false);
    }
  }

  /** The conversion and `contrast` agree on browser colour strings: the hex
      produced from `rgb(r, g, b)` parses back to `r`, `g`, `b`. */
  lemma CssRgbRoundTrip(r: nat, g: nat, b: nat)
    requires r < 256 && g < 256 && b < 256
    ensures ToHexFromRgbString(Some(CssRgb(r, g, b))) == Some(EncodeRgb(Num(r), Num(g), Num(b)))
    ensures |EncodeRgb(Num(r), Num(g), Num(b))| == 7
    ensures Channels(EncodeRgb(Num(r), Num(g), Num(b))) == (Num(r), Num(g), Num(b))
  {
    CssRgbComponents(r, g, b);
    DecParseRoundTrip(r);
    DecParseRoundTrip(g);
    DecParseRoundTrip(b);
    EncodeThenChannels(r, g, b);
  }

  /* ---------------------------------------------------------------------- */
  /* LED glow                                                               */
  /* ---------------------------------------------------------------------- */

  const WhiteGlow := "0 0 2px #fff, 0 0 4px #fff, 0 0 6px #fff"

  /** The two spellings of white that get the dimmer glow. */
  predicate IsWhiteLiteral(color: string) {
    color == "#FFFFFF" || color == "#fff"
  }

  /** `buildLedGlow(color)`: the dim white glow for the two white literals,
      five layers of the colour for anything else. */
  function BuildLedGlow(color: string): (glow: string)
    ensures glow == WhiteGlow <==> IsWhiteLiteral(color)
    ensures !IsWhiteLiteral(color) ==> |glow| == 52 + 5 * |color|
  {
    if IsWhiteLiteral(color) then WhiteGlow
    else "0 0 6px " + color + ", 0 0 10px " + color + ", 0 0 12px " + color
         + ", 0 0 16px " + color + ", 0 0 20px " + color
  }

  /** One text-shadow layer: no offset, a blur radius, a colour. */
  function GlowLayer(blur: string, color: string): string {
    "0 0 " + blur + " " + color
  }

  /** The coloured glow described layer by layer: five layers of the colour
      with growing blur. */
  function GlowLayers(color: string): (layers: seq<string>)
    ensures |layers| == 5
  {
    [GlowLayer("6px", color), GlowLayer("10px", color), GlowLayer("12px", color), GlowLayer("16px", color), GlowLayer("20px", color)]
  }

  /** The white literals get the fixed dim glow; every other string gets its
      five layers joined with commas, each layer ending in the colour, and a
      glow longer than the white one. */
  lemma GlowIsJoinedLayers(color: string)
    ensures IsWhiteLiteral(color) ==> BuildLedGlow(color) == WhiteGlow
    ensures !IsWhiteLiteral(color) ==> BuildLedGlow(color) == Join(GlowLayers(color), ", ")
    ensures !IsWhiteLiteral(color) ==> |BuildLedGlow(color)| > |WhiteGlow|
    ensures forall i | 0 <= i < 5 :: var l := GlowLayers(color)[i]; |l| > |color| && l[|l| - |color|..] == color
  {
    LayersEndWithColour(color);
    if !IsWhiteLiteral(color) {
      ColouredGlowJoined(color);
    }
  }

  lemma LayersEndWithColour(color: string)
    ensures forall i | 0 <= i < 5 :: var l := GlowLayers(color)[i]; |l| > |color| && l[|l| - |color|..] == color
  {
    var ls := GlowLayers(color);
    forall i | 0 <= i < 5
      ensures var l := ls[i]; |l| > |color| && l[|l| - |color|..] == color
    {
      var l := ls[i];
      var prefix := l[..|l| - |color|];
      assert l == prefix + color;
    }
  }

  /** `acc + ", 0 0 Npx " + color` is `acc`, a comma, and one more layer. */
  lemma AppendLayer(acc: string, blur: string, color: string)
    ensures acc + (", 0 0 " + blur + " ") + color == acc + ", " + GlowLayer(blur, color)
  {
  }

  lemma ColouredGlowJoined(color: string)
    requires !IsWhiteLiteral(color)
    ensures BuildLedGlow(color) == Join(GlowLayers(color), ", ")
    ensures |BuildLedGlow(color)| > |WhiteGlow|
  {
    assert |WhiteGlow| == 40;
    var ls := GlowLayers(color);
    assert ls[..1] == [ls[0]];
    assert ls[..2][..1] == [ls[0]] && ls[..3][..2] == ls[..2] && ls[..4][..3] == ls[..3] && ls[..5][..4] == ls[..4];
    assert ls[..5] == ls;
    var s1 := "0 0 6px " + color;
    assert s1 == ls[0] == Join(ls[..1], ", ");
    var s2 := s1 + ", 0 0 10px " + color;
    assert s2 == Join(ls[..2], ", ") by { AppendLayer(s1, "10px", color); }
    var s3 := s2 + ", 0 0 12px " + color;
    assert s3 == Join(ls[..3], ", ") by { AppendLayer(s2, "12px", color); }
    var s4 := s3 + ", 0 0 16px " + color;
    assert s4 == Join(ls[..4], ", ") by { AppendLayer(s3, "16px", color); }
    var s5 := s4 + ", 0 0 20px " + color;
    assert s5 == Join(ls[..5], ", ") by { AppendLayer(s4, "20px", color); }
    assert BuildLedGlow(color) == s5;
    assert |s5| == 52 + 5 * |color|;
  }

  /** Only the two exact spellings get the white glow; a lower-case
      `#ffffff` gets the five coloured layers. */
  lemma LowerCaseWhiteGetsColouredGlow()
    ensures BuildLedGlow("#ffffff") != WhiteGlow
    ensures BuildLedGlow("#ffffff") == Join(GlowLayers("#ffffff"), ", ")
  {
    GlowIsJoinedLayers("#ffffff");
  }

  /* ---------------------------------------------------------------------- */
  /* Palette                                                                */
  /* ---------------------------------------------------------------------- */

  datatype ColorOption = ColorOption(name: string, hex: string)

  const Palette: seq<ColorOption> := [
    ColorOption("Red", "#EF4444"),
    ColorOption("Green", "#10B981"),
    ColorOption("Blue", "#3B82F6"),
    ColorOption("Yellow", "#F59E0B"),
    ColorOption("White", "#FFFFFF")
  ]

  /** Under the scroller's threshold only White gets black text; under the
      themes' threshold Yellow does as well. */
  lemma PaletteContrast()
    ensures forall i | 0 <= i < |Palette| ::
              Contrast(Some(Palette[i].hex), ScrollerThreshold) == Black <==> Palette[i].name == "White"
    ensures forall i | 0 <= i < |Palette| ::
              Contrast(Some(Palette[i].hex), ThemeThreshold) == Black
              <==> Palette[i].name == "White" || Palette[i].name == "Yellow"
  {
    forall i | 0 <= i < |Palette|
      ensures Contrast(Some(Palette[i].hex), ScrollerThreshold) == Black <==> Palette[i].name == "White"
      ensures Contrast(Some(Palette[i].hex), ThemeThreshold) == Black
              <==> Palette[i].name == "White" || Palette[i].name == "Yellow"
    {
      var s := Palette[i].hex;
      assert IsHexColour(s);
      ContrastOfHexColour(s, ScrollerThreshold);
      ContrastOfHexColour(s, ThemeThreshold);
    }
  }
}

=== FILE: display.dfy ===
/**
 * What the scroller renders from its settings: the input screen with the
 * palette and the show button, the notice for a blank message, or the
 * scrolling display with its animation classes, duration and glow.
 */
module Display {
  import opened Wrappers
  import opened JsText
  import opened Colour
  import opened SettingsStore

  /** The speed slider's range. */
  const MinSpeed := 1
  const MaxSpeed := 10

  const NoMessageText := "No Message Input."

  /* ---------------------------------------------------------------------- */
  /* Animation duration                                                     */
  /* ---------------------------------------------------------------------- */

  /** Seconds for one pass of the text. */
  function DurationSeconds(speed: int): (seconds: int)
    ensures seconds % 2 == 1
    ensures (25 - seconds) / 2 == speed
  {
    25 - speed * 2
  }

  /** The CSS value handed to the animation: the number followed by `s`. */
  function DurationStyle(speed: int): string {
    IntToString(DurationSeconds(speed)) + "s"
  }

  /** On the slider's range a pass takes between 5 and 23 seconds, an odd
      number of them. */
  lemma DurationOnSlider(speed: int)
    requires MinSpeed <= speed <= MaxSpeed
    ensures 5 <= DurationSeconds(speed) <= 23
    ensures DurationSeconds(speed) % 2 == 1
  {
  }

  /** A higher speed means a strictly shorter pass, and the duration
      determines the speed. */
  lemma FasterIsShorter(a: int, b: int)
    ensures a < b <==> DurationSeconds(b) < DurationSeconds(a)
    ensures (25 - DurationSeconds(a)) / 2 == a
  {
  }

  /** The number in the duration style reads back as the duration. */
  lemma DurationStyleReadsBack(speed: int)
    ensures StringToNumber(DurationStyle(speed)[..|DurationStyle(speed)| - 1]) == Num(DurationSeconds(speed))
  {
    var n := IntToString(DurationSeconds(speed));
    assert DurationStyle(speed)[..|DurationStyle(speed)| - 1] == n;
    IntStringRoundTrip(DurationSeconds(speed));
  }

  /* ---------------------------------------------------------------------- */
  /* Animation classes                                                      */
  /* ---------------------------------------------------------------------- */

  /** The animation starts paused and runs once the start delay is over. */
  function AnimationClass(isScrolling: bool): string {
    if isScrolling then "animate-scroller" else "paused"
  }

  /** The class list of the moving element, read as space-separated tokens:
      the animation state, `led-text`, and `led-blink` when blinking. */
  function LedClass(isScrolling: bool, blink: bool): (classes: string)
    ensures Split(classes, ' ') == [AnimationClass(isScrolling), "led-text"] + (if blink then ["led-blink"] else [])
  {
    var a := AnimationClass(isScrolling);
    assert ' ' !in a && ' ' !in "led-text" && ' ' !in "led-blink";
    if blink then
      assert a + " led-text led-blink" == a + " " + "led-text" + " " + "led-blink";
      ThreeTokens(a, "led-text", "led-blink");
      a + " led-text led-blink"
    else
      assert a + " led-text" == a + " " + "led-text";
      TwoTokens(a, "led-text");
      a + " led-text"
  }

  /** Two words joined by a space split back into the two words. */
  lemma TwoTokens(a: string, b: string)
    requires ' ' !in a && ' ' !in b
    ensures Split(a + " " + b, ' ') == [a, b]
  {
    assert a + " " + b == a + [' '] + b;
    SplitAppend(a, b, ' ');
    SplitNoSep(b, ' ');
  }

  /** Three words joined by spaces split back into the three words. */
  lemma ThreeTokens(a: string, b: string, c: string)
    requires ' ' !in a && ' ' !in b && ' ' !in c
    ensures Split(a + " " + b + " " + c, ' ') == [a, b, c]
  {
    assert a + " " + b + " " + c == a + [' '] + (b + " " + c);
    SplitAppend(a, b + " " + c, ' ');
    TwoTokens(b, c);
  }

  /** Blinking is on exactly when `led-blink` is a class, and the animation
      runs exactly when `animate-scroller` is one. */
  lemma ClassTokens(isScrolling: bool, blink: bool)
    ensures ("led-blink" in Split(LedClass(isScrolling, blink), ' ')) <==> blink
    ensures ("paused" in Split(LedClass(isScrolling, blink), ' ')) <==> !isScrolling
    ensures ("animate-scroller" in Split(LedClass(isScrolling, blink), ' ')) <==> isScrolling
  {
  }

  /* ---------------------------------------------------------------------- */
  /* Palette on the input screen                                            */
  /* ---------------------------------------------------------------------- */

  /** Which palette buttons carry the `selected` class: those whose colour is
      the current one, compared exactly. */
  function PaletteSelection(color: string): (sel: seq<bool>)
    ensures |sel| == |Palette|
    ensures forall i | 0 <= i < |sel| :: sel[i] <==> Palette[i].hex == color
  {
    seq(|Palette|, i requires 0 <= i < |Palette| => Palette[i].hex == color)
  }

  /** The palette's colours are distinct. */
  lemma PaletteDistinct()
    ensures forall i, j | 0 <= i < j < |Palette| :: Palette[i].hex != Palette[j].hex
  {
  }

  /** At most one button is selected, and one is exactly when the current
      colour is one of the palette's, written as the palette writes it. */
  lemma {:induction false} SelectionIsUnique(color: string)
    ensures forall i, j | 0 <= i < |Palette| && 0 <= j < |Palette| ::
              PaletteSelection(color)[i] && PaletteSelection(color)[j] ==> i == j
    ensures (exists i | 0 <= i < |Palette| :: PaletteSelection(color)[i])
            <==> color in set o | o in Palette :: o.hex
  {
    PaletteDistinct();
    if color in set o | o in Palette :: o.hex {
      var o :| o in Palette && o.hex == color;
      var i :| 0 <= i < |Palette| && Palette[i] == o;
      assert PaletteSelection(color)[i];
    }
  }

  /* ---------------------------------------------------------------------- */
  /* The view                                                               */
  /* ---------------------------------------------------------------------- */

  datatype View =
    | InputScreen(showButtonText: string, selected: seq<bool>)
    | EmptyMessage(notice: string)
    | Scrolling(spans: seq<string>, className: string, duration: string, color: string, glow: string)

  /** The input screen: the show button's text colour comes from the
      contrast rule at the scroller's threshold. */
  function InputView(color: string): (v: View)
    ensures v.InputScreen? && v.showButtonText in {Black, White}
    ensures v.selected == PaletteSelection(color)
    ensures color == "" ==> v.showButtonText == White
    ensures IsHexColour(color) ==>
              (v.showButtonText == Black
               <==> Luma(PairValue(color, 1), PairValue(color, 3), PairValue(color, 5)) > ScrollerThreshold * 1000)
  {
    ContrastWhenHex(Some(color), ScrollerThreshold);
    InputScreen(Contrast(Some(color), ScrollerThreshold), PaletteSelection(color))
  }

  /** The moving display: three upper-cased copies of the message. */
  function ScrollingView(s: Settings, isScrolling: bool): (v: View)
    ensures v.Scrolling? && v.color == s.color
    ensures |v.spans| == 3 && forall i | 0 <= i < 3 :: v.spans[i] == ToUpper(s.text)
    ensures "led-blink" in Split(v.className, ' ') <==> s.blink
    ensures "animate-scroller" in Split(v.className, ' ') <==> isScrolling
    ensures v.duration == DurationStyle(s.speed) && v.glow == BuildLedGlow(s.color)
  {
    ClassTokens(isScrolling, s.blink);
    var line := ToUpper(s.text);
    Scrolling([line, line, line], LedClass(isScrolling, s.blink), DurationStyle(s.speed),
              s.color, BuildLedGlow(s.color))
  }

  /** The screen shown for the settings: the input screen while the display
      is hidden; otherwise the notice when the message is blank after
      trimming, or the moving display. */
  function Render(s: Settings, isScrolling: bool): (v: View)
    ensures v.InputScreen? <==> !s.showScroller
    ensures v.EmptyMessage? <==> s.showScroller && AllSpace(s.text)
    ensures v.Scrolling? ==> v == ScrollingView(s, isScrolling)
  {
    TrimEmptyIffAllSpace(s.text);
    if !s.showScroller then InputView(s.color)
    else if Trim(s.text) == "" then EmptyMessage(NoMessageText)
    else ScrollingView(s, isScrolling)
  }

  /** Only the settings decide which screen is shown: showing, then hiding,
      returns to the input screen with the same palette state. */
  lemma ShowThenHideRendersInput(app: App, isScrolling: bool)
    ensures Render(HideScroller(ShowScroller(app)).settings, isScrolling).InputScreen?
    ensures Render(HideScroller(ShowScroller(app)).settings, isScrolling).selected
            == PaletteSelection(app.settings.color)
  {
  }

  /** Picking a palette colour selects exactly that button and gives the show
      button the text colour the contrast rule picks for it: black on white
      only. */
  lemma {:induction false} PickColourSelectsIt(app: App, k: nat)
    requires k < |Palette|
    requires !app.settings.showScroller
    ensures Render(HandleChange(app, ColorChange(Palette[k].hex)).settings, false).selected[k]
    ensures forall i | 0 <= i < |Palette| && i != k ::
              !Render(HandleChange(app, ColorChange(Palette[k].hex)).settings, false).selected[i]
    ensures Render(HandleChange(app, ColorChange(Palette[k].hex)).settings, false).showButtonText
            == (if Palette[k].name == "White" then Black else White)
  {
    PaletteDistinct();
    PaletteContrast();
  }
}

=== FILE: js_text.dfy ===
/**
 * The JavaScript string and number primitives the LED scroller relies on,
 * defined on Dafny strings and unbounded integers: truthiness, the `\s` class,
 * `trim`, `toUpperCase`, `parseInt`, `Number(...)`, integer `toString`,
 * `split`, `slice` and `replace` of a single character.
 *
 * Numbers are integral: `JsNumber` is an exact integer or `NaN`.
 *
 * Lemmas about fixed-width hexadecimal take the width as a parameter pinned
 * by a precondition (`two == 2`) rather than as a literal, so that the solver
 * does not unfold `Fixed` digit by digit.
 */
module JsText {
  import opened Wrappers

  datatype JsNumber = Num(value: int) | NaN

  /* ---------------------------------------------------------------------- */
  /* Truthiness                                                             */
  /* ---------------------------------------------------------------------- */

  /** A string-or-null value is truthy iff it is a non-empty string. */
  predicate Truthy(x: Option<string>) {
    x.Some? && x.value != ""
  }

  /** JavaScript `a || b` on string-or-null operands. */
  function Or(a: Option<string>, b: Option<string>): (r: Option<string>)
    ensures Truthy(a) ==> r == a
    ensures !Truthy(a) ==> r == b
  {
    if Truthy(a) then a else b
  }

  /** `n || fallback` on a number: zero and NaN are falsy. */
  function NumberOr(n: JsNumber, fallback: int): (r: int)
    ensures r == fallback || (n.Num? && r == n.value && r != 0)
    ensures n.Num? && n.value != 0 ==> r == n.value
  {
    if n.Num? && n.value != 0 then n.value else fallback
  }

  /** The value of a JavaScript string-or-null as concatenated into a string. */
  function Str(x: Option<string>): string {
    match x
    case Some(s) => s
    case None => "null"
  }

  /* ---------------------------------------------------------------------- */
  /* Whitespace, trimming, upper case                                       */
  /* ---------------------------------------------------------------------- */

  /** The characters of the ECMAScript WhiteSpace and LineTerminator
      productions: the `\s` class of regular expressions and what `trim`
      and `parseInt` skip. */
  predicate IsSpace(c: char) {
    || c == '\t' || c == '\n' || c == '\U{000B}' || c == '\U{000C}' || c == '\r'
    || c == ' ' || c == '\U{00A0}' || c == '\U{1680}'
    || ('\U{2000}' <= c <= '\U{200A}')
    || c == '\U{2028}' || c == '\U{2029}' || c == '\U{202F}' || c == '\U{205F}'
    || c == '\U{3000}' || c == '\U{FEFF}'
  }

  predicate AllSpace(s: string) {
    forall i | 0 <= i < |s| :: IsSpace(s[i])
  }

  /** `s.trimStart()`: the longest white-space prefix is dropped. */
  function TrimStart(s: string): (t: string)
    ensures |t| <= |s| && t == s[|s| - |t|..]
    ensures AllSpace(s[..|s| - |t|])
    ensures |t| > 0 ==> !IsSpace(t[0])
  {
    if |s| > 0 && IsSpace(s[0]) then TrimStart(s[1..]) else s
  }

  /** `s.trimEnd()`: the longest white-space suffix is dropped. */
  function TrimEnd(s: string): (t: string)
    ensures |t| <= |s| && t == s[..|t|]
    ensures AllSpace(s[|t|..])
    ensures |t| > 0 ==> !IsSpace(t[|t| - 1])
  {
    if |s| > 0 && IsSpace(s[|s| - 1]) then TrimEnd(s[..|s| - 1]) else s
  }

  /** `s.trim()`. */
  function Trim(s: string): string {
    TrimEnd(TrimStart(s))
  }

  /** `t` occurs in `s` at `i` with only white space before and after it. */
  predicate SpaceAround(s: string, t: string, i: nat) {
    i + |t| <= |s| && s[i..i + |t|] == t && AllSpace(s[..i]) && AllSpace(s[i + |t|..])
  }

  /** `s.trim()` neither starts nor ends with white space. */
  lemma TrimHasSolidEnds(s: string)
    ensures Trim(s) == "" || (!IsSpace(Trim(s)[0]) && !IsSpace(Trim(s)[|Trim(s)| - 1]))
  {
    TrimEnds(TrimStart(s), Trim(s));
  }

  /** `s.trim()` is a run of `s` with only white space dropped on either
      side. */
  lemma TrimDropsOnlySpace(s: string)
    ensures exists i: nat | i <= |s| :: SpaceAround(s, Trim(s), i)
  {
    var u := TrimStart(s);
    var i := |s| - |u|;
    TrimPieces(s, u, TrimEnd(u), i);
    assert SpaceAround(s, Trim(s), i);
  }

  lemma TrimEnds(u: string, t: string)
    requires u == "" || !IsSpace(u[0])
    requires t == TrimEnd(u)
    ensures t == "" || (!IsSpace(t[0]) && !IsSpace(t[|t| - 1]))
  {
    if t != "" {
      assert t[0] == u[0];
    }
  }

  lemma TrimPieces(s: string, u: string, t: string, i: nat)
    requires i <= |s| && u == s[i..] && AllSpace(s[..i])
    requires |t| <= |u| && t == u[..|t|] && AllSpace(u[|t|..])
    ensures SpaceAround(s, t, i)
  {
    assert s[i + |t|..] == u[|t|..];
  }

  /** `s.trim()` is empty exactly when every character of `s` is white space. */
  lemma {:induction false} TrimEmptyIffAllSpace(s: string)
    ensures Trim(s) == "" <==> AllSpace(s)
    decreases |s|
  {
    if |s| > 0 && IsSpace(s[0]) {
      TrimEmptyIffAllSpace(s[1..]);
      assert AllSpace(s) <==> AllSpace(s[1..]) by {
        if AllSpace(s[1..]) {
          forall i | 0 <= i < |s| ensures IsSpace(s[i]) {
            if i > 0 { assert s[i] == s[1..][i - 1]; }
          }
        }
      }
    } else if |s| > 0 {
      assert TrimStart(s) == s;
      assert !AllSpace(s);
      var t := TrimEnd(s);
      if t == "" {
        TrimEndEmptyIffAllSpace(s);
      }
    }
  }

  lemma {:induction false} TrimEndEmptyIffAllSpace(s: string)
    ensures TrimEnd(s) == "" <==> AllSpace(s)
    decreases |s|
  {
    if |s| > 0 && IsSpace(s[|s| - 1]) {
      var p := s[..|s| - 1];
      TrimEndEmptyIffAllSpace(p);
      assert AllSpace(s) <==> AllSpace(p) by {
        if AllSpace(p) {
          forall i | 0 <= i < |s| ensures IsSpace(s[i]) {
            if i < |s| - 1 { assert s[i] == p[i]; }
          }
        }
      }
    } else if |s| > 0 {
      assert !AllSpace(s);
    }
  }

  /** ASCII upper-casing of one character. */
  function UpperChar(c: char): char {
    if 'a' <= c <= 'z' then (c as int - 32) as char else c
  }

  const LowerLetters := "abcdefghijklmnopqrstuvwxyz"
  const UpperLetters := "ABCDEFGHIJKLMNOPQRSTUVWXYZ"

  /** `s.toUpperCase()`, restricted to the ASCII letters. */
  function ToUpper(s: string): (u: string)
    ensures |u| == |s|
    ensures forall i | 0 <= i < |s| :: u[i] == UpperChar(s[i])
  {
    seq(|s|, i requires 0 <= i < |s| => UpperChar(s[i]))
  }

  /** Upper-casing turns each ASCII lower-case letter into its own capital,
      leaves no lower-case letter, changes nothing else, and is idempotent. */
  lemma ToUpperProperties(s: string)
    ensures forall i, k | 0 <= i < |s| && 0 <= k < 26 && s[i] == LowerLetters[k] ::
              ToUpper(s)[i] == UpperLetters[k]
    ensures forall i | 0 <= i < |s| :: !('a' <= ToUpper(s)[i] <= 'z')
    ensures forall i | 0 <= i < |s| :: !('a' <= s[i] <= 'z') ==> ToUpper(s)[i] == s[i]
    ensures ToUpper(ToUpper(s)) == ToUpper(s)
  {
  }

  /* ---------------------------------------------------------------------- */
  /* Digits                                                                 */
  /* ---------------------------------------------------------------------- */

  /** Whether `c` is a digit of radix 16 (`hex`) or of radix 10. Both cases
      of the letters count, as for `parseInt`. */
  predicate IsDigit(c: char, hex: bool) {
    ('0' <= c <= '9') || (hex && (('a' <= c <= 'f') || ('A' <= c <= 'F')))
  }

  function DigitValue(c: char): (v: nat)
    requires IsDigit(c, true)
    ensures v < 16
  {
    if '0' <= c <= '9' then c as int - '0' as int
    else if 'a' <= c <= 'f' then c as int - 'a' as int + 10
    else c as int - 'A' as int + 10
  }

  predicate AllDigits(s: string, hex: bool) {
    forall i | 0 <= i < |s| :: IsDigit(s[i], hex)
  }

  /** The lower-case digit character for `d`, as `Number.prototype.toString`
      writes it. */
  function DigitChar(d: nat): (c: char)
    requires d < 16
    ensures IsDigit(c, true) && DigitValue(c) == d
    ensures d < 10 ==> IsDigit(c, false)
    ensures !('A' <= c <= 'Z')
  {
    if d < 10 then ('0' as int + d) as char else ('a' as int + (d - 10)) as char
  }

  function Base(hex: bool): nat {
    if hex then 16 else 10
  }

  /** The value of a digit string, most significant digit first. */
  function DigitsValue(s: string, hex: bool): nat
    requires AllDigits(s, hex)
  {
    if |s| == 0 then 0
    else DigitsValue(s[..|s| - 1], hex) * Base(hex) + DigitValue(s[|s| - 1])
  }

  /** The longest prefix of `s` made of digits. */
  function LeadingDigits(s: string, hex: bool): (d: string)
    ensures |d| <= |s| && d == s[..|d|]
    ensures AllDigits(d, hex)
    ensures |d| < |s| ==> !IsDigit(s[|d|], hex)
  {
    if |s| == 0 || !IsDigit(s[0], hex) then ""
    else [s[0]] + LeadingDigits(s[1..], hex)
  }

  lemma {:induction false} LeadingDigitsOfDigits(s: string, rest: string, hex: bool)
    requires AllDigits(s, hex)
    requires |rest| == 0 || !IsDigit(rest[0], hex)
    ensures LeadingDigits(s + rest, hex) == s
    decreases |s|
  {
    if |s| > 0 {
      assert (s + rest)[1..] == s[1..] + rest;
      LeadingDigitsOfDigits(s[1..], rest, hex);
    } else {
      assert s + rest == rest;
    }
  }

  /* ---------------------------------------------------------------------- */
  /* Decimal and hexadecimal text of natural numbers                        */
  /* ---------------------------------------------------------------------- */

  /** Decimal text of `n`, without leading zeros. */
  function Dec(n: nat): (s: string)
    ensures |s| >= 1 && AllDigits(s, false)
  {
    if n < 10 then [DigitChar(n)] else Dec(n / 10) + [DigitChar(n % 10)]
  }

  /** Lower-case hexadecimal text of `n`, without leading zeros. */
  function Hex(n: nat): (s: string)
    ensures |s| >= 1 && AllDigits(s, true)
  {
    if n < 16 then [DigitChar(n)] else Hex(n / 16) + [DigitChar(n % 16)]
  }

  function Pow16(k: nat): (p: nat)
    ensures p >= 1
  {
    if k == 0 then 1 else 16 * Pow16(k - 1)
  }

  /** The low `width` hexadecimal digits of `n`, zero-padded. */
  function Fixed(n: nat, width: nat): (s: string)
    ensures |s| == width && AllDigits(s, true)
  {
    if width == 0 then "" else Fixed(n / 16, width - 1) + [DigitChar(n % 16)]
  }

  lemma {:induction false} DecValue(n: nat)
    ensures DigitsValue(Dec(n), false) == n
  {
    var c := DigitChar(n % 10);
    if n >= 10 {
      DecValue(n / 10);
      DigitsValueSnoc(Dec(n / 10), c, false);
      assert Dec(n) == Dec(n / 10) + [c];
    } else {
      DecOneDigit(n);
    }
  }

  lemma DecOneDigit(n: nat)
    requires n < 10
    ensures DigitsValue(Dec(n), false) == n
  {
    assert Dec(n) == [DigitChar(n)];
    DigitsValueSingle(DigitChar(n), false);
  }

  lemma DigitsValueSingle(c: char, hex: bool)
    requires IsDigit(c, hex)
    ensures AllDigits([c], hex) && DigitsValue([c], hex) == DigitValue(c)
  {
    assert [c][..0] == [];
  }

  /** The value of digits with one more digit at the end. */
  lemma DigitsValueSnoc(p: string, c: char, hex: bool)
    requires AllDigits(p, hex) && IsDigit(c, hex)
    ensures AllDigits(p + [c], hex)
    ensures DigitsValue(p + [c], hex) == DigitsValue(p, hex) * Base(hex) + DigitValue(c)
  {
    assert (p + [c])[..|p|] == p;
  }

  /** `Fixed` writes back the number it was given, when it fits. */
  lemma {:induction false} FixedValue(n: nat, width: nat)
    requires n < Pow16(width)
    ensures DigitsValue(Fixed(n, width), true) == n
  {
    if width > 0 {
      var c := DigitChar(n % 16);
      assert Pow16(width) == 16 * Pow16(width - 1);
      FixedValue(n / 16, width - 1);
      DigitsValueSnoc(Fixed(n / 16, width - 1), c, true);
      FixedLastDigit(n, width);
    } else {
      assert Fixed(n, width) == "";
    }
  }

  /** `a` followed by `k` zero hexadecimal digits: `a * 16^k`, written with
      multiplications by the constant only. */
  function Shifted(a: nat, k: nat): (r: nat)
    ensures r >= a
  {
    if k == 0 then a else 16 * Shifted(a, k - 1)
  }

  lemma {:induction false} ShiftedIsProduct(a: nat, k: nat)
    ensures Shifted(a, k) == a * Pow16(k)
  {
    if k > 0 {
      ShiftedIsProduct(a, k - 1);
      assert a * (16 * Pow16(k - 1)) == 16 * (a * Pow16(k - 1));
    }
  }

  /** Appending `k` fixed digits after a number's digits multiplies by 16^k. */
  lemma {:induction false} HexShift(q: nat, m: nat, k: nat)
    requires q >= 1 && m < Pow16(k)
    ensures Hex(Shifted(q, k) + m) == Hex(q) + Fixed(m, k)
  {
    if k > 0 {
      QuotientFits(m, k);
      HexShift(q, m / 16, k - 1);
      ShiftStep(q, k, m);
      HexShiftStep(q, m, k, Shifted(q, k) + m, Shifted(q, k - 1) + m / 16);
    } else {
      NoDigits(q, m, k);
    }
  }

  /** With no digits to append, nothing is shifted. */
  lemma NoDigits(q: nat, m: nat, k: nat)
    requires k == 0 && m < Pow16(k)
    ensures Shifted(q, k) + m == q && Fixed(m, k) == ""
  {
  }

  /** The inductive step of `HexShift`. */
  lemma HexShiftStep(q: nat, m: nat, k: nat, n: nat, n': nat)
    requires k > 0 && n >= 16 && n / 16 == n' && n % 16 == m % 16
    requires Hex(n') == Hex(q) + Fixed(m / 16, k - 1)
    ensures Hex(n) == Hex(q) + Fixed(m, k)
  {
    var last := [DigitChar(m % 16)];
    HexLastDigit(n, n', m % 16);
    FixedLastDigit(m, k);
    AppendAssoc(Hex(q), Fixed(m / 16, k - 1), last);
  }

  /** `Fixed` writes the last digit after the narrower text of the quotient. */
  lemma FixedLastDigit(m: nat, k: nat)
    requires k > 0
    ensures Fixed(m, k) == Fixed(m / 16, k - 1) + [DigitChar(m % 16)]
  {
  }

  /** `Hex` writes the last digit after the digits of the quotient. */
  lemma HexLastDigit(n: nat, quotient: nat, digit: nat)
    requires n >= 16 && n / 16 == quotient && n % 16 == digit
    ensures Hex(n) == Hex(quotient) + [DigitChar(digit)]
  {
  }

  lemma AppendAssoc(a: string, b: string, c: string)
    ensures a + b + c == a + (b + c)
  {
  }

  lemma QuotientFits(m: nat, k: nat)
    requires k > 0 && m < Pow16(k)
    ensures m / 16 < Pow16(k - 1)
  {
  }

  /** One digit's worth of the arithmetic behind `HexShift` and `FixedConcat`. */
  lemma ShiftStep(q: nat, k: nat, m: nat)
    requires k > 0 && m < Pow16(k)
    ensures (Shifted(q, k) + m) / 16 == Shifted(q, k - 1) + m / 16
    ensures (Shifted(q, k) + m) % 16 == m % 16
    ensures q >= 1 ==> Shifted(q, k) + m >= 16
  {
  }

  /** Fixed-width hexadecimal text splits at a digit boundary. */
  lemma {:induction false} FixedConcat(a: nat, b: nat, j: nat, k: nat)
    requires b < Pow16(k)
    ensures Fixed(Shifted(a, k) + b, j + k) == Fixed(a, j) + Fixed(b, k)
  {
    if k > 0 {
      QuotientFits(b, k);
      FixedConcat(a, b / 16, j, k - 1);
      ShiftStep(a, k, b);
      FixedConcatStep(a, b, j, k, Shifted(a, k) + b, Shifted(a, k - 1) + b / 16);
    } else {
      NoDigits(a, b, k);
      assert Fixed(a, j) + Fixed(b, k) == Fixed(a, j);
    }
  }

  /** The inductive step of `FixedConcat`, free of the multiplication. */
  lemma FixedConcatStep(a: nat, b: nat, j: nat, k: nat, n: nat, n': nat)
    requires k > 0 && n / 16 == n' && n % 16 == b % 16
    requires Fixed(n', j + k - 1) == Fixed(a, j) + Fixed(b / 16, k - 1)
    ensures Fixed(n, j + k) == Fixed(a, j) + Fixed(b, k)
  {
    var last := [DigitChar(b % 16)];
    FixedLastDigit(n, j + k);
    FixedLastDigit(b, k);
    AppendAssoc(Fixed(a, j), Fixed(b / 16, k - 1), last);
  }

  /* ---------------------------------------------------------------------- */
  /* parseInt, Number, toString                                             */
  /* ---------------------------------------------------------------------- */

  /** `parseInt(s, 16)` when `hex`, else `parseInt(s)` with no radix: skip
      leading white space, take an optional sign, drop a `0x`/`0X` prefix
      (which also switches an absent radix to 16), then read the longest run
      of digits; no digits at all is `NaN`. */
  function ParseInt(s: string, hex: bool): JsNumber {
    ParseSigned(TrimStart(s), hex)
  }

  /** The sign step of `parseInt`: a leading `-` negates, a leading `+` is
      dropped. */
  function ParseSigned(t: string, hex: bool): JsNumber {
    if |t| > 0 && t[0] == '-' then Negate(ParseUnsigned(t[1..], hex))
    else if |t| > 0 && t[0] == '+' then ParseUnsigned(t[1..], hex)
    else ParseUnsigned(t, hex)
  }

  function Negate(n: JsNumber): JsNumber {
    match n
    case NaN => NaN
    case Num(v) => Num(-v)
  }

  predicate HasHexPrefix(u: string) {
    |u| >= 2 && u[0] == '0' && (u[1] == 'x' || u[1] == 'X')
  }

  /** The prefix step: `0x` or `0X` is dropped and selects radix 16. */
  function ParseUnsigned(u: string, hex: bool): JsNumber {
    if HasHexPrefix(u) then ParseDigits(u[2..], true) else ParseDigits(u, hex)
  }

  /** The digit step: the value of the longest run of leading digits, `NaN`
      when there is none. */
  function ParseDigits(u: string, hex: bool): JsNumber {
    var d := LeadingDigits(u, hex);
    if d == "" then NaN else Num(DigitsValue(d, hex))
  }

  /** `parseInt` reads a run of digits and ignores the text after it, as long
      as the run and its follower do not form a `0x` prefix. */
  lemma ParseIntStopsAtText(d: string, rest: string, hex: bool)
    requires |d| >= 1 && AllDigits(d, hex)
    requires |rest| == 0 || !IsDigit(rest[0], hex)
    requires !HasHexPrefix(d + rest)
    ensures ParseInt(d + rest, hex) == Num(DigitsValue(d, hex))
  {
    var s := d + rest;
    assert s[0] == d[0];
    PlainStart(s, hex);
    LeadingDigitsOfDigits(d, rest, hex);
  }

  /** Text that starts with a digit and no `0x` goes straight to the digit
      step. */
  lemma PlainStart(s: string, hex: bool)
    requires |s| >= 1 && IsDigit(s[0], hex) && !HasHexPrefix(s)
    ensures ParseInt(s, hex) == ParseDigits(s, hex)
  {
    assert !IsSpace(s[0]);
    assert TrimStart(s) == s;
  }

  /** Text that starts with neither white space, a sign nor a digit is not a
      number to `parseInt`. */
  lemma ParseIntOfText(s: string, hex: bool)
    requires |s| > 0 && !IsSpace(s[0]) && s[0] != '-' && s[0] != '+' && !IsDigit(s[0], hex)
    ensures ParseInt(s, hex) == NaN
  {
    assert TrimStart(s) == s;
    assert !HasHexPrefix(s);
    assert LeadingDigits(s, hex) == "";
  }

  /** A string of plain digits parses to its value in either radix mode. */
  lemma ParseIntOfDigits(d: string, hex: bool)
    requires |d| >= 1 && AllDigits(d, hex)
    ensures ParseInt(d, hex) == Num(DigitsValue(d, hex))
  {
    DigitsAreNotSpace(d, hex);
    DigitsAreUnsigned(d, hex);
    LeadingDigitsOfDigits(d, "", hex);
    assert d + "" == d;
  }

  lemma DigitsAreNotSpace(d: string, hex: bool)
    requires |d| >= 1 && AllDigits(d, hex)
    ensures TrimStart(d) == d
  {
    assert IsDigit(d[0], hex);
    assert !IsSpace(d[0]);
  }

  lemma DigitsAreUnsigned(d: string, hex: bool)
    requires |d| >= 1 && AllDigits(d, hex)
    ensures ParseSigned(d, hex) == ParseDigits(d, hex)
  {
    assert IsDigit(d[0], hex);
    if |d| >= 2 {
      assert IsDigit(d[1], hex);
    }
  }

  /** Decimal text reads back as the number it was written from. */
  lemma DecParseRoundTrip(n: nat)
    ensures ParseInt(Dec(n), false) == Num(n)
  {
    ParseIntOfDigits(Dec(n), false);
    DecValue(n);
  }

  /** A byte as exactly two lower-case hexadecimal digits. */
  function HexByte(n: nat): (s: string)
    requires n < 256
    ensures |s| == 2 && AllDigits(s, true)
  {
    [DigitChar(n / 16), DigitChar(n % 16)]
  }

  /** Two fixed digits are the byte's two digits. */
  lemma FixedTwo(n: nat, two: nat)
    requires n < 256 && two == 2
    ensures Fixed(n, two) == HexByte(n)
  {
    assert Fixed(n / 16, two - 1) == Fixed(n / 16 / 16, two - 2) + [DigitChar(n / 16 % 16)];
  }

  /** A byte's two digits read back with `parseInt(…, 16)`. */
  lemma HexByteParse(n: nat)
    requires n < 256
    ensures ParseInt(HexByte(n), true) == Num(n)
  {
    var s := HexByte(n);
    assert DigitsValue(s, true) == n by {
      TwoDigitsValue(DigitChar(n / 16), DigitChar(n % 16));
    }
    ParseIntOfDigits(s, true);
  }

  lemma TwoDigitsValue(hi: char, lo: char)
    requires IsDigit(hi, true) && IsDigit(lo, true)
    ensures DigitsValue([hi, lo], true) == 16 * DigitValue(hi) + DigitValue(lo)
  {
    var s := [hi, lo];
    var h := [hi];
    assert s[..|s| - 1] == h && s[|s| - 1] == lo;
    assert h[..|h| - 1] == [] && h[|h| - 1] == hi;
    assert DigitsValue([], true) == 0;
    assert DigitsValue(h, true) == DigitsValue([], true) * Base(true) + DigitValue(hi);
    assert DigitsValue(s, true) == DigitsValue(h, true) * Base(true) + DigitValue(lo);
  }

  /** `String(n)` for an integral number. */
  function IntToString(n: int): string {
    if n < 0 then "-" + Dec(-n) else Dec(n)
  }

  /** `Number(s)` for a string, restricted to decimal integer literals:
      surrounding white space is ignored, an empty or blank string is 0, an
      optional sign and a run of decimal digits give that integer, and any
      other text is `NaN`. */
  function StringToNumber(s: string): (n: JsNumber)
    ensures AllSpace(s) ==> n == Num(0)
    ensures |s| > 0 && 'a' <= s[0] <= 'z' ==> n == NaN
  {
    TrimEmptyIffAllSpace(s);
    NumberText(Trim(s))
  }

  /** `Number` on trimmed text. */
  function NumberText(t: string): JsNumber {
    if t == "" then Num(0)
    else if t[0] == '-' then Negate(DecimalLiteral(t[1..]))
    else if t[0] == '+' then DecimalLiteral(t[1..])
    else DecimalLiteral(t)
  }

  /** An unsigned decimal literal; anything else is `NaN`. */
  function DecimalLiteral(b: string): JsNumber {
    if b != "" && AllDigits(b, false) then Num(DigitsValue(b, false)) else NaN
  }

  /** `Number(x)` for a string-or-null; `Number(null)` is 0. */
  function ToNumber(x: Option<string>): JsNumber {
    match x
    case None => Num(0)
    case Some(s) => StringToNumber(s)
  }

  /** An integer written with `String` converts back with `Number`. */
  lemma IntStringRoundTrip(n: int)
    ensures StringToNumber(IntToString(n)) == Num(n)
  {
    var s := IntToString(n);
    if n < 0 {
      var m: nat := -n;
      assert s == "-" + Dec(m);
      NegativeRoundTrip(m);
      assert StringToNumber(s) == Num(-(m as int));
    } else {
      var m: nat := n;
      assert s == Dec(m);
      NonNegativeRoundTrip(m);
      assert StringToNumber(s) == Num(m);
    }
  }

  lemma NonNegativeRoundTrip(m: nat)
    ensures StringToNumber(Dec(m)) == Num(m)
  {
    var d := Dec(m);
    calc {
      StringToNumber(d);
      NumberText(Trim(d));
      { DecIsTrimmed(m); }
      NumberText(d);
      { DecIsTrimmed(m); }
      DecimalLiteral(d);
      { DecLiteral(m); }
      Num(m);
    }
  }

  lemma NegativeRoundTrip(m: nat)
    requires m > 0
    ensures StringToNumber("-" + Dec(m)) == Num(-(m as int))
  {
    var d := Dec(m);
    DecLiteral(m);
    assert IsDigit(d[|d| - 1], false);
    NegativeLiteral(d, m);
  }

  /** A minus sign before a literal negates its value. */
  lemma NegativeLiteral(d: string, v: int)
    requires |d| > 0 && !IsSpace(d[|d| - 1]) && DecimalLiteral(d) == Num(v)
    ensures StringToNumber("-" + d) == Num(-v)
  {
    var s := "-" + d;
    calc {
      StringToNumber(s);
      NumberText(Trim(s));
      { SolidEndsAreTrimmed(s); }
      NumberText(s);
      { NumberTextOfMinus(s); }
      Negate(DecimalLiteral(s[1..]));
      { DropPrefix("-", d); }
      Negate(DecimalLiteral(d));
    }
  }

  lemma DropPrefix(p: string, d: string)
    ensures (p + d)[|p|..] == d
  {
  }

  lemma NumberTextOfMinus(t: string)
    requires |t| > 0 && t[0] == '-'
    ensures NumberText(t) == Negate(DecimalLiteral(t[1..]))
  {
  }

  /** Decimal text is a decimal literal of its number. */
  lemma DecLiteral(m: nat)
    ensures DecimalLiteral(Dec(m)) == Num(m)
  {
    DecValue(m);
  }

  /** Decimal text has no surrounding white space. */
  lemma DecIsTrimmed(n: nat)
    ensures Trim(Dec(n)) == Dec(n)
    ensures Dec(n)[0] != '-' && Dec(n)[0] != '+'
  {
    var d := Dec(n);
    assert IsDigit(d[0], false) && IsDigit(d[|d| - 1], false);
    SolidEndsAreTrimmed(d);
  }

  /** Text that starts and ends with a non-space character is its own trim. */
  lemma SolidEndsAreTrimmed(s: string)
    requires |s| > 0 && !IsSpace(s[0]) && !IsSpace(s[|s| - 1])
    ensures Trim(s) == s
  {
    assert TrimStart(s) == s;
    assert TrimEnd(s) == s;
  }

  /** `n.toString(16)` for an integral number. */
  function NumberToHex(n: int): string {
    if n < 0 then "-" + Hex(-n) else Hex(n)
  }

  lemma {:induction false} HexValue(n: nat)
    ensures DigitsValue(Hex(n), true) == n
  {
    if n >= 16 {
      var q, d := n / 16, n % 16;
      HexValue(q);
      HexLastDigit(n, q, d);
      DigitsValueSnoc(Hex(q), DigitChar(d), true);
    } else {
      HexOneDigit(n);
    }
  }

  lemma HexOneDigit(n: nat)
    requires n < 16
    ensures DigitsValue(Hex(n), true) == n
  {
    assert Hex(n) == [DigitChar(n)];
    DigitsValueSingle(DigitChar(n), true);
  }

  /** `parseInt(n.toString(16), 16)` is `n`, for negative `n` too. */
  lemma HexParseRoundTrip(n: int)
    ensures ParseInt(NumberToHex(n), true) == Num(n)
  {
    var m: nat := if n < 0 then -n else n;
    HexValue(m);
    if n < 0 {
      NegativeHexParse(m);
    } else {
      ParseIntOfDigits(Hex(m), true);
    }
  }

  lemma NegativeHexParse(m: nat)
    requires DigitsValue(Hex(m), true) == m
    ensures ParseInt("-" + Hex(m), true) == Negate(Num(m))
  {
    var h := Hex(m);
    var s := "-" + h;
    assert s[0] == '-' && s[1..] == h;
    assert TrimStart(s) == s by { assert !IsSpace(s[0]); }
    assert ParseSigned(s, true) == Negate(ParseUnsigned(h, true));
    UnsignedDigits(h);
  }

  /** Hexadecimal digits without a sign read as their value. */
  lemma UnsignedDigits(h: string)
    requires |h| >= 1 && AllDigits(h, true)
    ensures ParseUnsigned(h, true) == Num(DigitsValue(h, true))
  {
    assert !HasHexPrefix(h) by {
      if |h| >= 2 { assert IsDigit(h[1], true); }
    }
    LeadingDigitsOfDigits(h, "", true);
    assert h + "" == h;
  }

  /* ---------------------------------------------------------------------- */
  /* slice, replace, split, startsWith                                      */
  /* ---------------------------------------------------------------------- */

  /** `s.slice(from, to)` for non-negative bounds: both are clamped to the
      length. */
  function Slice(s: string, from: nat, to: nat): (r: string)
    ensures |r| <= |s|
    ensures to <= |s| && from <= to ==> r == s[from..to]
  {
    var a := if from <= |s| then from else |s|;
    var b := if to <= |s| then to else |s|;
    if a <= b then s[a..b] else ""
  }

  /** `s.substr(from, length)` for non-negative arguments: the start is
      clamped to the length and at most `length` characters follow it. */
  function Substr(s: string, from: nat, length: nat): (r: string)
    ensures r == Slice(s, from, from + length)
  {
    var a := if from <= |s| then from else |s|;
    s[a..if length <= |s| - a then a + length else |s|]
  }

  /** `s.replace(c, '')` with a one-character pattern: only the first
      occurrence is removed. */
  function RemoveFirst(s: string, c: char): (r: string)
    ensures c !in s ==> r == s
    ensures |s| > 0 && s[0] == c ==> r == s[1..]
    ensures forall i | 0 <= i < |s| && s[i] == c && c !in s[..i] :: r == s[..i] + s[i + 1..]
  {
    if |s| == 0 then ""
    else if s[0] == c then s[1..]
    else
      var r := [s[0]] + RemoveFirst(s[1..], c);
      assert forall i | 0 <= i < |s| && s[i] == c && c !in s[..i] :: r == s[..i] + s[i + 1..] by {
        forall i | 0 <= i < |s| && s[i] == c && c !in s[..i]
          ensures r == s[..i] + s[i + 1..]
        {
          FirstOccurrenceInTail(s, c, i);
        }
      }
      r
  }

  /** The first `c` at `i > 0` is the first `c` of the tail, at `i - 1`. */
  lemma FirstOccurrenceInTail(s: string, c: char, i: nat)
    requires 0 < |s| && s[0] != c
    requires i < |s| && s[i] == c && c !in s[..i]
    ensures 0 < i && s[1..][i - 1] == c && c !in s[1..][..i - 1]
    ensures s[..i] + s[i + 1..] == [s[0]] + (s[1..][..i - 1] + s[1..][i..])
  {
    assert s[1..][..i - 1] == s[1..i];
    assert s[..i] == [s[0]] + s[1..i];
    assert s[1..][i..] == s[i + 1..];
  }

  predicate StartsWith(s: string, p: string) {
    |p| <= |s| && s[..|p|] == p
  }

  /** `s.split(sep)` for a one-character separator. */
  function Split(s: string, sep: char): (parts: seq<string>)
    ensures |parts| >= 1
    ensures forall i | 0 <= i < |parts| :: sep !in parts[i]
  {
    if |s| == 0 then [""]
    else if s[0] == sep then [""] + Split(s[1..], sep)
    else
      var rest := Split(s[1..], sep);
      [[s[0]] + rest[0]] + rest[1..]
  }

  /** `parts.join(sep)`, built from the left as `a + sep + b + sep + c`
      associates. */
  function Join(parts: seq<string>, sep: string): string
    decreases |parts|
  {
    if |parts| == 0 then ""
    else if |parts| == 1 then parts[0]
    else Join(parts[..|parts| - 1], sep) + sep + parts[|parts| - 1]
  }

  /** A piece free of the separator splits off cleanly from what follows it. */
  lemma {:induction false} SplitAppend(a: string, b: string, sep: char)
    requires sep !in a
    ensures Split(a + [sep] + b, sep) == [a] + Split(b, sep)
    decreases |a|
  {
    if |a| == 0 {
      assert a + [sep] + b == [sep] + b;
      assert ([sep] + b)[1..] == b;
    } else {
      assert (a + [sep] + b)[1..] == a[1..] + [sep] + b;
      SplitAppend(a[1..], b, sep);
      assert [a[0]] + a[1..] == a;
    }
  }

  /** Joining the pieces of a split with the separator gives back the text. */
  lemma {:induction false} SplitJoin(s: string, sep: char)
    ensures Join(Split(s, sep), [sep]) == s
    decreases |s|
  {
    if |s| > 0 {
      var rest := Split(s[1..], sep);
      SplitJoin(s[1..], sep);
      if s[0] == sep {
        JoinCons("", rest, [sep]);
        assert [sep] + s[1..] == s;
      } else {
        JoinPrefixHead([s[0]], rest, [sep]);
        assert [s[0]] + s[1..] == s;
      }
    }
  }

  /** One more piece in front adds it and a separator in front. */
  lemma {:induction false} JoinCons(x: string, parts: seq<string>, sep: string)
    requires |parts| >= 1
    ensures Join([x] + parts, sep) == x + sep + Join(parts, sep)
    decreases |parts|
  {
    var q := [x] + parts;
    if |parts| == 1 {
      assert q[..1] == [x];
    } else {
      var init := parts[..|parts| - 1];
      assert q[..|q| - 1] == [x] + init;
      JoinCons(x, init, sep);
    }
  }

  /** Text put in front of the first piece comes out in front of the join. */
  lemma {:induction false} JoinPrefixHead(p: string, parts: seq<string>, sep: string)
    requires |parts| >= 1
    ensures Join([p + parts[0]] + parts[1..], sep) == p + Join(parts, sep)
    decreases |parts|
  {
    var q := [p + parts[0]] + parts[1..];
    if |parts| > 1 {
      var init := parts[..|parts| - 1];
      assert q[..|q| - 1] == [p + init[0]] + init[1..];
      JoinPrefixHead(p, init, sep);
    }
  }

  lemma SplitNoSep(a: string, sep: char)
    requires sep !in a
    ensures Split(a, sep) == [a]
    decreases |a|
  {
    if |a| > 0 {
      SplitNoSep(a[1..], sep);
      assert [a[0]] + a[1..] == a;
    }
  }
}

=== FILE: settings.dfy ===
/**
 * The scroller's settings record and the application state around it: the
 * dark/light flag, whether storage works, and a key-value map standing in
 * for the browser's local storage. Loading applies the defaults and
 * fallbacks; a change writes one field and persists it under its key;
 * showing and hiding the display touch only the visibility flag.
 */
module SettingsStore {
  import opened Wrappers
  import opened JsText

  type Storage = map<string, string>

  const MessageKey := "led_message"
  const SpeedKey := "led_speed"
  const ColorKey := "led_color"
  const BlinkKey := "led_blink"
  const ThemeKey := "led_theme"
  /** The key written and removed again to find out whether storage works. */
  const ProbeKey := "_led_test"

  const DefaultText := "Hello World!"
  const DefaultSpeed := 5
  const DefaultColor := "#EF4444"

  datatype Settings = Settings(text: string, speed: int, color: string, blink: bool, showScroller: bool)

  const Defaults := Settings(DefaultText, DefaultSpeed, DefaultColor, false, false)

  datatype App = App(settings: Settings, darkMode: bool, storageAvailable: bool, storage: Storage)

  /** `localStorage.getItem(key)`: `null` for a missing key. */
  function Get(storage: Storage, key: string): (r: Option<string>)
    ensures r.Some? <==> key in storage
    ensures r.Some? ==> r.value == storage[key]
  {
    if key in storage then Some(storage[key]) else None
  }

  /** How a stored flag is written. */
  function BoolText(b: bool): string {
    if b then "true" else "false"
  }

  /** How the theme is written. */
  function ThemeName(dark: bool): string {
    if dark then "dark" else "light"
  }

  /* ---------------------------------------------------------------------- */
  /* Initial load                                                           */
  /* ---------------------------------------------------------------------- */

  /** The initial settings. With storage unavailable every read throws and the
      defaults are used as a whole. Otherwise a missing or empty message, a
      speed that converts to 0 or `NaN`, and a missing or empty colour fall
      back to their defaults; blink is on only for the stored text `true`;
      the display starts hidden. Speed and colour are not otherwise checked. */
  function LoadSettings(storage: Storage, available: bool): (s: Settings)
    ensures !s.showScroller
    ensures s.text != "" && s.speed != 0 && s.color != ""
    ensures !available ==> s == Defaults
    ensures available ==> (s.blink <==> Get(storage, BlinkKey) == Some("true"))
    ensures (available && MessageKey !in storage && SpeedKey !in storage && ColorKey !in storage
             && BlinkKey !in storage) ==> s == Defaults
    ensures available && Truthy(Get(storage, MessageKey)) ==> s.text == storage[MessageKey]
    ensures available && !Truthy(Get(storage, MessageKey)) ==> s.text == DefaultText
    ensures available && Truthy(Get(storage, ColorKey)) ==> s.color == storage[ColorKey]
    ensures available && !Truthy(Get(storage, ColorKey)) ==> s.color == DefaultColor
    ensures available && ToNumber(Get(storage, SpeedKey)).Num? && ToNumber(Get(storage, SpeedKey)).value != 0
            ==> s.speed == ToNumber(Get(storage, SpeedKey)).value
    ensures available && (ToNumber(Get(storage, SpeedKey)).NaN? || ToNumber(Get(storage, SpeedKey)) == Num(0))
            ==> s.speed == DefaultSpeed
  {
    if !available then Defaults
    else
      Settings(
        Or(Get(storage, MessageKey), Some(DefaultText)).value,
        NumberOr(ToNumber(Get(storage, SpeedKey)), DefaultSpeed),
        Or(Get(storage, ColorKey), Some(DefaultColor)).value,
        Get(storage, BlinkKey) == Some("true"),
        false)
  }

  /** A stored speed that is not a number, such as `abc`, loads as the
      default speed, and so do a missing speed and a blank one. */
  lemma SpeedFallsBack(storage: Storage)
    requires SpeedKey !in storage || AllSpace(storage[SpeedKey])
             || (|storage[SpeedKey]| > 0 && 'a' <= storage[SpeedKey][0] <= 'z')
    ensures LoadSettings(storage, true).speed == DefaultSpeed
  {
  }

  /** The initial theme: light only when storage is readable and holds
      `light`; any other value, a missing key or unreadable storage means
      dark. */
  function LoadDarkMode(storage: Storage, available: bool): (dark: bool)
    ensures !dark <==> available && ThemeKey in storage && storage[ThemeKey] == "light"
  {
    !(available && Get(storage, ThemeKey) == Some("light"))
  }

  /** The state after the first render and its effects: the probe key is
      written and removed when storage works, and the theme is written back. */
  function Mount(storage: Storage, available: bool): (app: App)
    ensures app.settings == LoadSettings(storage, available)
    ensures app.darkMode == LoadDarkMode(storage, available)
    ensures app.storageAvailable == available
    ensures !available ==> app.storage == storage
    ensures available ==> ProbeKey !in app.storage
    ensures available ==> ThemeKey in app.storage && app.storage[ThemeKey] == ThemeName(app.darkMode)
    ensures forall k | k in storage && k != ProbeKey && k != ThemeKey :: k in app.storage && app.storage[k] == storage[k]
    ensures app.storage.Keys <= storage.Keys + {ThemeKey}
  {
    var dark := LoadDarkMode(storage, available);
    var written := if available then (storage - {ProbeKey})[ThemeKey := ThemeName(dark)] else storage;
    App(LoadSettings(storage, available), dark, available, written)
  }

  /** A second page load sees the theme the first one saved. */
  lemma {:induction false} ThemeSurvivesReload(storage: Storage, available: bool)
    ensures Mount(Mount(storage, available).storage, available).darkMode == Mount(storage, available).darkMode
    ensures Mount(Mount(storage, available).storage, available).settings == Mount(storage, available).settings
  {
    var first := Mount(storage, available);
    if available {
      assert Get(first.storage, MessageKey) == Get(storage, MessageKey);
      assert Get(first.storage, SpeedKey) == Get(storage, SpeedKey);
      assert Get(first.storage, ColorKey) == Get(storage, ColorKey);
      assert Get(first.storage, BlinkKey) == Get(storage, BlinkKey);
    }
  }

  /* ---------------------------------------------------------------------- */
  /* handleChange                                                           */
  /* ---------------------------------------------------------------------- */

  /** A call of `handleChange(name, value)` as the form makes it. */
  datatype Change =
    | TextChange(text: string)
    | SpeedChange(speed: int)
    | ColorChange(color: string)
    | BlinkChange(blink: bool)

  datatype Field = TextField | SpeedField | ColorField | BlinkField | ShowField

  function FieldOf(c: Change): Field {
    match c
    case TextChange(_) => TextField
    case SpeedChange(_) => SpeedField
    case ColorChange(_) => ColorField
    case BlinkChange(_) => BlinkField
  }

  /** `s` holds the value the change carries in the change's field. */
  predicate Holds(s: Settings, c: Change) {
    match c
    case TextChange(t) => s.text == t
    case SpeedChange(n) => s.speed == n
    case ColorChange(col) => s.color == col
    case BlinkChange(b) => s.blink == b
  }

  /** `s` and `t` agree on field `f`. */
  predicate SameOn(s: Settings, t: Settings, f: Field) {
    match f
    case TextField => s.text == t.text
    case SpeedField => s.speed == t.speed
    case ColorField => s.color == t.color
    case BlinkField => s.blink == t.blink
    case ShowField => s.showScroller == t.showScroller
  }

  /** The storage key each field is written under. */
  function KeyOf(c: Change): string {
    match c
    case TextChange(_) => MessageKey
    case SpeedChange(_) => SpeedKey
    case ColorChange(_) => ColorKey
    case BlinkChange(_) => BlinkKey
  }

  /** The text written for a change: a speed through `String`, a flag as
      `true`/`false`. */
  function StoredText(c: Change): string {
    match c
    case TextChange(t) => t
    case SpeedChange(n) => IntToString(n)
    case ColorChange(col) => col
    case BlinkChange(b) => BoolText(b)
  }

  /** The copy with one field replaced. */
  function Assign(s: Settings, c: Change): (t: Settings)
    ensures Holds(t, c)
    ensures forall f | f != FieldOf(c) :: SameOn(t, s, f)
  {
    match c
    case TextChange(x) => s.(text := x)
    case SpeedChange(x) => s.(speed := x)
    case ColorChange(x) => s.(color := x)
    case BlinkChange(x) => s.(blink := x)
  }

  /** `handleChange(name, value)`: the in-memory update always happens; the
      value is written under its key only while storage is available, and no
      other key is touched. */
  function HandleChange(app: App, c: Change): (a: App)
    ensures Holds(a.settings, c)
    ensures forall f | f != FieldOf(c) :: SameOn(a.settings, app.settings, f)
    ensures a.darkMode == app.darkMode && a.storageAvailable == app.storageAvailable
    ensures !app.storageAvailable ==> a.storage == app.storage
    ensures app.storageAvailable ==> KeyOf(c) in a.storage && a.storage[KeyOf(c)] == StoredText(c)
    ensures a.storage.Keys <= app.storage.Keys + {KeyOf(c)}
    ensures forall k | k in app.storage && k != KeyOf(c) :: k in a.storage && a.storage[k] == app.storage[k]
  {
    var written := if app.storageAvailable then app.storage[KeyOf(c) := StoredText(c)] else app.storage;
    App(Assign(app.settings, c), app.darkMode, app.storageAvailable, written)
  }

  /** Whether a value survives a reload: an empty message, a zero speed and
      an empty colour are replaced by their defaults. */
  predicate Reloadable(c: Change) {
    match c
    case TextChange(t) => t != ""
    case SpeedChange(n) => n != 0
    case ColorChange(col) => col != ""
    case BlinkChange(_) => true
  }

  /** The value a reload yields for a field whose stored value does not
      survive. */
  predicate IsDefaultFor(s: Settings, f: Field) {
    match f
    case TextField => s.text == DefaultText
    case SpeedField => s.speed == DefaultSpeed
    case ColorField => s.color == DefaultColor
    case BlinkField => !s.blink
    case ShowField => !s.showScroller
  }

  /** Persistence round trip: after a change with storage available, a reload
      reads back the changed field exactly when the value is reloadable, and
      otherwise falls back to the default; the other fields read back as they
      would have before the change. */
  lemma {:induction false} ChangeSurvivesReload(app: App, c: Change)
    requires app.storageAvailable
    ensures Holds(LoadSettings(HandleChange(app, c).storage, true), c) <==> Reloadable(c)
    ensures !Reloadable(c) ==> IsDefaultFor(LoadSettings(HandleChange(app, c).storage, true), FieldOf(c))
    ensures forall f | f != FieldOf(c) && f != ShowField ::
              SameOn(LoadSettings(HandleChange(app, c).storage, true), LoadSettings(app.storage, true), f)
  {
    var st := HandleChange(app, c).storage;
    assert Get(st, KeyOf(c)) == Some(StoredText(c));
    forall k | k != KeyOf(c) ensures Get(st, k) == Get(app.storage, k) {
    }
    match c
    case SpeedChange(n) => {
      IntStringRoundTrip(n);
    }
    case TextChange(_) =>
    case ColorChange(_) =>
    case BlinkChange(_) =>
  }

  /** When storage is unavailable a change lives only in memory: a reload
      gives the defaults. */
  lemma UnavailableChangeIsForgotten(app: App, c: Change)
    requires !app.storageAvailable
    ensures LoadSettings(HandleChange(app, c).storage, app.storageAvailable) == Defaults
  {
  }

  /* ---------------------------------------------------------------------- */
  /* Show / hide, theme toggle                                              */
  /* ---------------------------------------------------------------------- */

  /** `handleShowScroller`. */
  function ShowScroller(app: App): (a: App)
    ensures a.settings.showScroller
    ensures forall f | f != ShowField :: SameOn(a.settings, app.settings, f)
    ensures a.darkMode == app.darkMode && a.storageAvailable == app.storageAvailable && a.storage == app.storage
  {
    app.(settings := app.settings.(showScroller := true))
  }

  /** `handleHideScroller`. */
  function HideScroller(app: App): (a: App)
    ensures !a.settings.showScroller
    ensures forall f | f != ShowField :: SameOn(a.settings, app.settings, f)
    ensures a.darkMode == app.darkMode && a.storageAvailable == app.storageAvailable && a.storage == app.storage
  {
    app.(settings := app.settings.(showScroller := false))
  }

  /** Hiding after showing restores the state; showing twice is showing once. */
  lemma ShowHideRoundTrip(app: App)
    ensures HideScroller(ShowScroller(app)) == HideScroller(app)
    ensures !app.settings.showScroller ==> HideScroller(ShowScroller(app)) == app
    ensures ShowScroller(ShowScroller(app)) == ShowScroller(app)
  {
  }

  /** `setDarkMode(dark)` followed by the theme effect, which saves the theme
      while storage is available. */
  function SetDarkMode(app: App, dark: bool): (a: App)
    ensures a.darkMode == dark && a.settings == app.settings && a.storageAvailable == app.storageAvailable
    ensures app.storageAvailable ==> LoadDarkMode(a.storage, true) == dark
    ensures !app.storageAvailable ==> a.storage == app.storage
    ensures forall k | k in app.storage && k != ThemeKey :: k in a.storage && a.storage[k] == app.storage[k]
    ensures a.storage.Keys <= app.storage.Keys + {ThemeKey}
  {
    var written := if app.storageAvailable then app.storage[ThemeKey := ThemeName(dark)] else app.storage;
    App(app.settings, dark, app.storageAvailable, written)
  }

  /** The theme button: flips the flag and saves it. */
  function ToggleTheme(app: App): (a: App)
    ensures a.darkMode != app.darkMode
    ensures a.settings == app.settings && a.storageAvailable == app.storageAvailable
    ensures app.storageAvailable ==> LoadDarkMode(a.storage, true) == a.darkMode
    ensures !app.storageAvailable ==> a.storage == app.storage
    ensures forall k | k in app.storage && k != ThemeKey :: k in a.storage && a.storage[k] == app.storage[k]
    ensures a.storage.Keys <= app.storage.Keys + {ThemeKey}
  {
    SetDarkMode(app, !app.darkMode)
  }

  /** Toggling twice gives back the theme, and a reload after a toggle shows
      the toggled theme. */
  lemma ToggleRoundTrip(app: App)
    ensures ToggleTheme(ToggleTheme(app)).darkMode == app.darkMode
    ensures app.storageAvailable ==> Mount(ToggleTheme(app).storage, true).darkMode == ToggleTheme(app).darkMode
  {
  }
}

=== FILE: wrappers.dfy ===
/** The optional-value datatype shared by every module of the model. A JavaScript
    `null` (a missing storage key, a missing attribute) is `None`. */
module Wrappers {

  datatype Option<+T> = None | Some(value: T)
}
